=== FILE: README.md ===
# smfr core in Dafny

This project models the codec core of `smfr`, a Rust reader and writer for
Standard MIDI Files. The model covers five parts:

- **VLQ codec.** `to_vlq` / `from_vlq`, the variable-length quantities of
  the Standard MIDI File format. See `vlq.dfy` (module `Vlq`).
- **Message types and encoders.** Channel voice and mode messages, meta
  events, sysex events, and their `raw()` byte encoders. See `message.dfy`
  (module `Message`).
- **Event and chunk types and encoders.** `MidiEvent`, `EventPair`,
  `HeaderChunk`, `TrackChunk` and `MidiChunk`, with their `raw()`. See
  `event.dfy` (module `Event`).
- **Byte cursor.** `SmfReader`: the file's bytes in memory plus a read
  pointer. See `reader.dfy` (module `Reader`).
- **Parser.** `SmfParser`: the cursor plus the running-status register,
  with chunk dispatch, the track event loop, VLQ reading, and decoding of
  channel, meta and sysex messages. See `parser.dfy` (module `Parser`).

The last file, `roundtrip.dfy` (module `RoundTrip`), relates the encoders
to the parser. For every value the encoders write and the parser accepts,
it states what the parser returns, how many bytes it consumes, and the
running status it leaves.

`base.dfy` (module `Base`) holds the shared pieces:

- the machine integer ranges;
- `Option`;
- bit-mask arithmetic;
- the outcome type `Outcome<T>`, which is one of three things:
  - `Ok(value)`;
  - `Err`: an `SmfError` returned to the caller;
  - `Abort`: a panic of the Rust code. This covers `assert!`, `expect`,
    `unwrap`, `unimplemented!`, `unreachable!`, an out-of-bounds index, and
    an arithmetic overflow as a debug build traps it.

Each parser method becomes a pure function. It takes the parser state and
returns `Parsed(out, rest)`: the outcome, and the state the call leaves
behind. An `Err` keeps the state too, because bytes consumed before an
error stay consumed in the Rust code.

The model follows the code as written, not the MIDI standard it aims at.
Where the encoder and the parser disagree, the round-trip lemmas state what
comes back (`ReparsedEvent`, `HeaderOfBytes`, `TrackLengthOf`) rather than
claiming the original value.

## Behaviour as written

The parts of the code that differ from the Standard MIDI File format. Each
one is modelled, and the lemmas named here exhibit it.

- **`to_vlq(0)` panics.** It decrements index 0 of an empty vector
  (`Vlq.ToVlq`).
  - So `EventPair::raw` panics on a zero delta time, and so do the text,
    sequencer-specific and sysex encoders on a zero length.
  - The parser accepts zero delta times (`RoundTrip.RunningStatusExample`).
- **Masks instead of byte extraction in the encoders.** Several encoders
  mask bits instead of extracting bytes:
  - the header and track lengths write `len & (0xFF << k)` for k = 3, 2, 1;
  - the u16 header fields write `x & (0xFF << 1)`;
  - `SequenceNumber` uses `0b1100` / `0b0011`;
  - `SetTempo` uses `0b110000` / `0b001100` / `0b000011`;
  - SMPTE uses similar masks.

  `Event.LengthBytes`, `Event.ShortBytes`, `Message.SequenceNumberBytes`,
  `Message.SetTempoBytes` and `Message.SmpteBytes` state the bytes written
  for every value; `Event.HeaderRawExample`, `Event.TrackLengthCollision`
  and `RoundTrip.SetTempoExample` show the effect on particular values.
- **Header resolution.** The parser reads it as `(b0 << 1) + b1`
  (`RoundTrip.HeaderRoundTripExample`).
- **Track length.** The parser reads it as
  `(b0 << 3) + (b1 << 2) + (b2 << 1) + b3` (`Parser.TrackLengthOf`). The
  track's events are read up to the first end of track, whatever the
  length says.
- **Channels are not range-checked.** The status byte is base + channel,
  so a channel of 16 or more spills into the next message kind: `NoteOff`
  on channel 16 is written as `NoteOn` on channel 0 and read back as such
  (`Message.NoteOffChannelAlias`, `RoundTrip.NoteOffChannelAliasRead`).
- **Status 0xAn decodes to `NoteOn`.** Polyphonic key pressure therefore
  comes back as a note on.
- **Pitch bend's data bytes are swapped.** The parser stores the first
  data byte as `msb`, but the encoder writes `lsb` first
  (`RoundTrip.ReparsedVoice`).
- **Mode messages are not recognised.** Status 0xBn always decodes to a
  controller change, so a mode message comes back as the controller change
  it is sent as (`RoundTrip.ReparsedChannel`).
- **Status bytes 0xF1–0xFE other than 0xF7 panic.** Every status byte
  other than 0xF0, 0xF7 and 0xFF is passed to the channel parser. There the
  bytes 0xF1–0xFE other than 0xF7 are consumed and recorded as the running status, and then the parser
  panics (`Parser.ChannelBody`).
- **Running status is never cleared.** It is set only by an explicit
  status byte and survives across tracks (`RoundTrip.TrackRoundTrip`).
  - A data byte with no status recorded panics
    (`RoundTrip.MissingRunningStatus`).
- **Rejected meta events:**
  - SMPTE offset events panic on `data[5]` (`RoundTrip.SmpteRejected`).
  - Meta types 0x08 and 0x09 reach `unreachable!`.
  - Sequencer-specific events reach `unimplemented!`
    (`RoundTrip.SequencerSpecificRejected`).
  - The channel prefix 0x20, which the encoder writes, is an unknown meta
    type to the parser (`RoundTrip.ChannelPrefixRejected`).
- **The reader's peek is strict.** `seek_bytes` fails when exactly the
  requested number of bytes remain (`Reader.SeekRemainingFails`).
  - As a result, `parse_midi_event` fails on an event whose first byte is
    the last byte of the file.

## Model

| member | source | states |
|---|---|---|
| Vlq.ToVlq | src/types/message.rs:2-13 | panics exactly for 0; otherwise the bytes are a well-formed VLQ (continuation bit on every byte but the last) whose value is the input, 1 to 5 bytes long, at most 4 below 2^28, and the single byte v itself for 0 < v < 128 |
| Vlq.ToVlqLoop | src/types/message.rs:2-13 | the push/clear/reverse loop computes the same bytes (or the same panic) as the recursive reference `ToVlq` |
| Vlq.FromVlq | src/types/message.rs:15-27 | never an Err; returns the big-endian 7-bit value of the bytes whenever it fits in 32 bits and at most 5 bytes are given; up to 4 bytes it always succeeds below 2^28; 6 or more bytes overflow the shift and panic |
| Vlq.FromVlqFold | src/types/message.rs:17-25 | the loop from any index never reports an error and only adds to the sum so far; with 6 or more bytes left the first shift is at least 35 and panics |
| Vlq.FromVlqValue | src/types/message.rs:15-27 | the loop run from the start returns the big-endian 7-bit value of the bytes whenever it fits in 32 bits and at most 5 bytes are given; up to 4 bytes it always succeeds below 2^28; 6 or more bytes overflow the shift and panic |
| Vlq.VlqRoundTrip | src/types/message.rs:2-27 | `from_vlq(to_vlq(v)) == v` for every nonzero 32-bit v |
| Vlq.FromVlqExamples | src/lib.rs:8-17 | the two `from_vlq` unit tests: [0x7F] is 127, [0xFF, 0x7F] is 16383 |
| Vlq.ToVlqExamples | src/lib.rs:19-38 | the three `to_vlq` unit tests (126, 100000, 1000) and the panic on 0 |
| Message.Channel | src/types/message.rs:58-106 | the channel of a voice or mode message; when it is below 16 it is the low nibble of the message's encoded status byte |
| Message.VoiceStatusByte | src/types/message.rs:71-81 | the status byte is the message's base (0x80 to 0xE0) plus the channel, unchecked, and exists exactly when that sum fits a byte; for channels below 16 its high nibble is the message's base and its low nibble the channel |
| Message.ModeStatusByte | src/types/message.rs:94-96 | every mode message has status 0xB0 + channel, unchecked, which exists exactly when the channel is below 0x50; for channels below 16 it is 0xBn |
| Message.NoteOffChannelAlias | src/types/message.rs:71-81 | `NoteOff` on channel 16 and `NoteOn` on channel 0 are written as the same three bytes 0x90, key, velocity |
| Message.VoiceRaw | src/types/message.rs:108-121 | status byte then the data bytes in declaration order: key then velocity for note off, note on and key pressure, controller then value for control change, the single byte for program change and channel pressure, lsb then msb for pitch bend; panics exactly when the status byte overflows |
| Message.ModeRaw | src/types/message.rs:123-132 | three bytes: the 0xB0 + channel status, the controller number 0x78 for all sound off, 0x79 for reset all controllers and 0x7B for all notes off, and 0 |
| Message.ChannelRaw | src/types/message.rs:134-141 | a channel message is encoded by its voice or mode encoder |
| Message.Framed | src/types/message.rs:165-172 | a framed payload is the head, then a VLQ that decodes to the length, then the payload; it panics exactly for length 0 |
| Message.MetaRaw | src/types/message.rs:163-199 | every meta event starts FF and its type code and is at least 3 bytes; encoding panics exactly for a text or sequencer-specific event of length 0 |
| Message.OtherMetaRaw | src/types/message.rs:176-196 | the non-text meta events start FF and their type code; only a sequencer-specific event of length 0 panics |
| Message.SequenceNumberBytes | src/types/message.rs:176 | a sequence number is written FF 00 02, then bits 3-2 and bits 1-0 of the number, each in place: the rest of the number is lost |
| Message.SetTempoBytes | src/types/message.rs:186 | a tempo is written FF 51 03, then bits 5-4, 3-2 and 1-0 of the tempo, each in place |
| Message.SmpteBytes | src/types/message.rs:187 | an SMPTE offset is written FF 54 05, then the four bit pairs of the offset's low byte, each in place, then the frame |
| Message.SysExRaw | src/types/message.rs:202-222 | the F0/F7 prefix, a VLQ that decodes to the length, then the data; panics exactly for length 0 |
| Event.EventRaw | src/types/event.rs:19-28 | a `MidiEvent` is encoded exactly as the message it wraps |
| Event.NewEventPair | src/types/event.rs:40-43 | `EventPair::new` stores time and event unchanged |
| Event.EventOf | src/types/event.rs:45-51 | `event` / `event_copy` return the stored event: rebuilding a pair from its time and that event gives the pair back |
| Event.PairRaw | src/types/event.rs:30-38 | the event's bytes preceded by a prefix that decodes back to the time; panics exactly when the time is 0 or the event's encoder panics |
| Event.PairsRaw | src/types/event.rs:94-96 | the concatenated pairs of a track never yield an Err, and on success are exactly as long as the sum of the pairs' encoded sizes |
| Event.PairsRawOk | src/types/event.rs:94-96 | the pairs of a track encode without panicking exactly when every pair does |
| Event.LengthBytes | src/types/event.rs:80 | since `0xFF << k` shifts the mask and not the length, the four length bytes are the low byte of the length with its 3, 2, 1 and 0 lowest bits cleared |
| Event.ClearedByte | src/types/event.rs:80 | `(x & (0xFF << k)) as u8` for k = 1, 2, 3 is the low byte of x with its k lowest bits cleared |
| Event.ShortBytes | src/types/event.rs:81-83 | a u16 field is written as its low byte with bit 0 cleared, then its low byte |
| Event.HeaderRaw | src/types/event.rs:76-86 | always 14 bytes: "MThd", the four masked length bytes, then the two masked bytes of format, tracks and resolution in turn; bytes 7, 9, 11 and 13 are the low bytes of the four fields |
| Event.TrackRaw | src/types/event.rs:88-99 | "MTrk", four length bytes that depend only on the stored length (byte 7 its low byte), then exactly the concatenated pairs; its size is 8 plus the pairs' sizes; it encodes exactly when every pair does |
| Event.ChunkRaw | src/types/event.rs:101-109 | a chunk is encoded by its header or track encoder |
| Event.HeaderRawExample | src/types/event.rs:80-83 | the standard header (6, 1, 2, 480) is written with masked rather than big-endian fields |
| Event.TrackLengthCollision | src/types/event.rs:92 | track lengths 0 and 256 are written as the same four bytes |
| Reader.ResetPointer | src/file/filerw.rs:41-43 | the pointer goes back to 0 and the data is kept |
| Reader.NextBytes | src/file/filerw.rs:64-78 | succeeds exactly when n bytes remain, returns the n bytes at the pointer and advances it by exactly n; a failure leaves the reader unchanged |
| Reader.SeekBytes | src/file/filerw.rs:80-92 | succeeds exactly when more than n bytes remain (strict), and then returns what reading n bytes would; it returns no new reader, so the pointer never moves |
| Reader.ValidPreserved | src/file/filerw.rs:41-78 | reset and read keep the pointer within the data |
| Reader.SeekRemainingFails | src/file/filerw.rs:81 | peeking exactly the remaining bytes fails while reading them succeeds |
| Parser.New | src/file/parser.rs:13-15 | a new parser wraps the reader with no running status |
| Parser.ParseVlq | src/file/parser.rs:107-123 | consumes bytes up to and including the first byte below 0x80; Err exactly when the data ends first; panics exactly when more than 4 bytes were consumed; otherwise returns their VLQ value; running status untouched |
| Parser.DecodeVoice | src/file/parser.rs:178-218 | the channel is the status's low nibble; the decoded message kind follows the status's high nibble, with 0xA read as a note on, so key pressure never comes out; the number of data bytes matches the message kind; the first data byte is the key, controller or single value and the second the velocity or value, except for pitch bend, whose first byte becomes the msb |
| Parser.ChannelBody | src/file/parser.rs:178-227 | panics exactly for a status outside 0x80–0xEF; Err only when too few data bytes remain; otherwise consumes exactly the data bytes and decodes them |
| Parser.ParseChannelMessage | src/file/parser.rs:158-228 | Err without moving when the byte cannot be peeked; a status byte is consumed and becomes the running status; a data byte reuses the recorded status without consuming anything and panics when none is recorded |
| Parser.TextMeta | src/file/parser.rs:251-258 | type codes 1–7 build the text event of that code, keeping length and text |
| Parser.FixedMeta | src/file/parser.rs:240-307 | the fixed-size events decode with their type code; sequence number and tempo are the big-endian value of their data; SMPTE panics |
| Parser.FixedBody | src/file/parser.rs:240-307 | a fixed-size meta event panics when the declared VLQ length differs from the event's size; on success the length was that size, exactly that many bytes follow it, and the event carries the requested type code |
| Parser.PayloadRest | src/file/parser.rs:250-260 | after the length, the payload is exactly `length` bytes; text codes give the event of that code carrying that length and, as its text, the next `length` bytes of the input, leaving the pointer just after them; codes 8, 9 and 0x7F never succeed |
| Parser.PayloadBody | src/file/parser.rs:248-261 | text types return the text of exactly the declared length; types 8, 9 and 0x7F never succeed |
| Parser.MetaBody | src/file/parser.rs:239-316 | unknown meta types are an Err without consuming more; decoded events carry the requested type, and text events carry exactly `length` bytes |
| Parser.ParseMetaEvent | src/file/parser.rs:230-318 | panics when the first byte is not 0xFF; a decoded event carries the type byte that follows and text of its declared length; running status untouched |
| Parser.ParseSysex | src/file/parser.rs:320-336 | decodes F0 and F7 events with exactly the declared number of data bytes; running status untouched |
| Parser.ParseMidiEvent | src/file/parser.rs:125-138 | Err without moving when the first byte cannot be peeked; the running status changes only to a consumed status byte of the channel parser |
| Parser.ParseMtrkEvent | src/file/parser.rs:97-105 | a successful pair read always consumes input |
| Parser.ParseMtrkEvents | src/file/parser.rs:73-95 | a parsed track is non-empty, ends with an end of track, and has no earlier end of track |
| Parser.HeaderBody | src/file/parser.rs:20-41 | succeeds exactly when 10 bytes remain; length, format and tracks are big-endian and the resolution is `2*b0 + b1`; the length is not checked against 6 |
| Parser.TrackBody | src/file/parser.rs:44-62 | Err without moving when the length bytes are missing; the decoded length is `8*b0 + 4*b1 + 2*b2 + b3`, and the events end with their first end of track |
| Parser.NextChunk | src/file/parser.rs:17-71 | Err when fewer than 4 bytes remain or the tag is neither MThd nor MTrk; an MThd chunk decodes exactly when its 10 bytes are present |
| Parser.SeekIfTrackEnd | src/file/parser.rs:142-156 | never panics; Err exactly when 3 bytes cannot be peeked; otherwise true exactly when they are FF 2F 00 |
| RoundTrip.SeekIfTrackEndAgrees | src/file/parser.rs:142-156 | the peek answers true at an encoded end of track with a byte after it, and whenever it answers true, `parse_midi_event` reads exactly an end of track from those 3 bytes |
| RoundTrip.ParseVlqAt | src/file/parser.rs:107-123 | a well-formed VLQ of at most 4 bytes is read as its value and consumed exactly |
| RoundTrip.ParseVlqOfToVlq | src/file/parser.rs:107-123 | `parse_vlq` reads back what `to_vlq` wrote, for 0 < v < 2^28 |
| RoundTrip.ParseVlqOfLongToVlq | src/file/parser.rs:121 | values from 2^28 up are written in 5 bytes, and reading them back panics |
| RoundTrip.ExplicitStatus | src/file/parser.rs:170-218 | a status byte and its data bytes are consumed, decoded, and the status is recorded |
| RoundTrip.RunningStatus | src/file/parser.rs:165-171 | with a status recorded, a data byte is decoded under it and only the data bytes are consumed |
| RoundTrip.MissingRunningStatus | src/file/parser.rs:171 | a data byte with no recorded status panics, in the channel parser and in `parse_midi_event` |
| RoundTrip.DecodeVoiceRaw | src/types/message.rs:108-121 | the bytes of a voice message on channels 0–15 decode to the reparsed message (key pressure as note on, pitch bend swapped) |
| RoundTrip.NoteOffChannelAliasRead | src/file/parser.rs:158-218 | the bytes written for `NoteOff` on channel 16 are read back as `NoteOn` on channel 0 |
| RoundTrip.ChannelRoundTrip | src/file/parser.rs:158-218 | an encoded channel message is read back as its reparsed form, consuming exactly its bytes and recording its status byte |
| RoundTrip.SetTempoExample | src/types/message.rs:186 | the default tempo 500000 is read back as 0x200000 |
| RoundTrip.TextRaw | src/types/message.rs:165-183 | a text event is FF, its code, `to_vlq(length)`, then the text |
| RoundTrip.TextRoundTrip | src/file/parser.rs:248-261 | a text event whose length is its size (below 2^28) is read back unchanged, consuming exactly its bytes |
| RoundTrip.FixedRawShape | src/types/message.rs:176-189 | fixed-size events are written as FF, type, size byte and payload, and the payload decodes to the reparsed event |
| RoundTrip.FixedRoundTrip | src/file/parser.rs:240-307 | sequence number, end of track, tempo, time and key signature are read back as their reparsed form, consuming exactly their bytes |
| RoundTrip.MetaRoundTrip | src/file/parser.rs:230-318 | every decodable meta event is read back as its reparsed form, consuming exactly its bytes |
| RoundTrip.ChannelPrefixRaw | src/types/message.rs:184 | a channel prefix is written as FF 20 01 and the channel |
| RoundTrip.ChannelPrefixRejected | src/file/parser.rs:315 | the parser answers a written channel prefix with Err, after consuming its first two bytes |
| RoundTrip.SmpteRejected | src/file/parser.rs:278-285 | every written SMPTE offset panics when read back |
| RoundTrip.SequencerSpecificBytes | src/types/message.rs:190-196 | a sequencer-specific event of any nonzero length is written as FF 7F, `to_vlq(length)`, id, data, whatever the length says |
| RoundTrip.SequencerSpecificRaw | src/types/message.rs:190-196 | a sequencer-specific event of length 2 is written as FF 7F 02, id, data |
| RoundTrip.SequencerSpecificRejected | src/file/parser.rs:309-313 | such an event panics when read back |
| RoundTrip.SysExRawBytes | src/types/message.rs:207-222 | a sysex event is its prefix, `to_vlq(length)`, then the data |
| RoundTrip.SysExRoundTrip | src/file/parser.rs:320-336 | a sysex event whose length is its size (below 2^28) is read back unchanged, consuming exactly its bytes |
| RoundTrip.EventRoundTrip | src/file/parser.rs:125-138 | every decodable event is read back as its reparsed form, consuming exactly its bytes; the running status becomes the status byte of a channel message and is otherwise kept |
| RoundTrip.PairBytes | src/types/event.rs:30-38 | for every positive delta time and every event the encoder accepts, a pair is exactly `to_vlq(time)` followed by the event's bytes |
| RoundTrip.DecodableEncodes | src/types/event.rs:30-38 | every pair the parser can read back (delta time in 1..2^28, decodable event) is accepted by the encoder: positive time and an event that encodes |
| RoundTrip.PairRoundTrip | src/file/parser.rs:97-105 | a pair with a delta time in 1..2^28 and a decodable event is read back as its reparsed form, consuming exactly its bytes |
| RoundTrip.ReparsedEndOfTrack | src/file/parser.rs:83-91 | reparsing neither creates nor removes an end of track, so the event loop stops where it should |
| RoundTrip.PairsRoundTrip | src/file/parser.rs:73-95 | the encoded pairs of a track ending with its only end of track are read back as the reparsed pairs, consuming exactly their bytes, with the running status carried across |
| RoundTrip.HeaderReadBack | src/file/parser.rs:20-41 | the header decoded from the bytes written for h keeps only each field's low byte, repeated with low bits cleared: length `8⌊l/8⌋·2^24 + 4⌊l/4⌋·2^16 + 2⌊l/2⌋·2^8 + l`, format and tracks `2⌊x/2⌋·2^8 + x`, resolution `4⌊x/2⌋ + x`, where l and x are the low bytes |
| RoundTrip.HeaderRoundTrip | src/file/parser.rs:17-41 | an encoded header chunk is read back as the decoding of its 10 field bytes, which is the masked header of h, consuming 14 bytes |
| RoundTrip.HeaderRoundTripExample | src/file/parser.rs:34-37 | the standard header (6, 1, 2, 480) is read back as (0x40606, 1, 514, 672) |
| RoundTrip.TrackRoundTrip | src/file/parser.rs:44-62 | an encoded track chunk is read back with reparsed events and the length the parser derives from the masked length bytes, consuming exactly its bytes; the running status is left at the last channel status |
| RoundTrip.RunningStatusExample | src/file/parser.rs:165-176 | the track 00 90 3C 40 00 3C 00 00 FF 2F 00 reads as two note-ons on channel 0 and an end of track, the second note reusing status 0x90, which stays recorded |

## Left out

- File I/O is not modelled: `read_from_file` and `write_to_file`. The
  model starts from the bytes already in memory.
- `SmfError`'s message, formatting and `Clone` are not modelled; an error
  is the bare outcome `Err`.
- The `println!` calls in the parser are not modelled, since they only
  print.
- The command-line program `src/main.rs` is not part of this model.
- `SMF`, `read_all`, track merging and `recalculate_length` are not part
  of this model. They are named by the program but not defined in the
  files modelled here.
- `usize` arithmetic of the reader is unbounded. `pointer + bytes` cannot
  overflow on data that fits in memory.
- Integer overflow follows a debug build, where it panics: `0x80 + channel`
  and the other status sums, and the additions in `from_vlq`. A release
  build would wrap these instead; that variant is not modelled.
- `parser.rs` builds messages with names that `message.rs` does not
  define: `ControlChange`, `ProgramChange{pc}`, `SMPTEOffset{smpte}` and a
  tuple-style `ChannelVoiceMessage(..)`. As written the two files do not
  compile together. The model maps them onto the types of `message.rs`:
  `ControllerChange`, `ProgramChange` with its `vel` field,
  `SMTPEOffset`, and the `Voice` wrapper.
- The reader's `_ref` variants are not modelled separately. They differ
  from `next_bytes` / `seek_bytes` only in borrowing instead of copying.
- Reader.SeekBytes: returns only the bytes, because the Rust method takes
  `&self` and cannot move the pointer.
- RoundTrip.PairRoundTrip: requires a delta time above 0, because
  `to_vlq(0)` panics in the encoder.
- RoundTrip.PairRoundTrip: requires the delta time to be below 2^28,
  because a 5-byte VLQ trips the parser's `assert!`
  (`RoundTrip.ParseVlqOfLongToVlq`).
- RoundTrip.TextRoundTrip: the stored length must equal the text size. The
  encoder writes `length` and the text independently, and the parser reads
  `length` bytes.
- RoundTrip.SysExRoundTrip: the stored length must equal the data size.
  The encoder writes `length` and the data independently.
- RoundTrip.MetaRoundTrip: claims no identity for sequence number, tempo,
  SMPTE, channel prefix or sequencer-specific events.
  - The first two come back as their masked bytes (`ReparsedMeta`).
  - The last three do not decode at all.
- RoundTrip.ChannelRoundTrip: claims no identity for polyphonic key
  pressure, pitch bend or mode messages. It states their reparsed form.
  Channels of 16 and above are excluded, because they are written with a
  status byte outside the channel's range.
- RoundTrip.HeaderRoundTrip: states the header the parser derives from
  the masked bytes (`MaskedHeader`), not the original header.
- RoundTrip.TrackRoundTrip: states the length the parser derives from the
  masked bytes, not the original length.
- RoundTrip.PairsRoundTrip: requires the end of track to be the last event
  and the only one. Events after it would not be read.

=== FILE: base.dfy ===
/** Machine integers, the outcome of a fallible Rust call, and the bit helpers
    the encoders need. */
module Base {

  type uint8 = x: int | 0 <= x < 0x100
  type uint16 = x: int | 0 <= x < 0x1_0000
  type uint32 = x: int | 0 <= x < 0x1_0000_0000

  /** Rust's `Option`. */
  datatype Option<+T> = None | Some(value: T)

  /** What a Rust call that may return `Err` or panic ends in.
      `Err` is a returned `SmfError` (its message is not modelled);
      `Abort` is a panic: `assert!`, `expect`, `unwrap`, `unimplemented!`,
      `unreachable!`, an index out of bounds, or an arithmetic overflow
      (as a debug build checks it). `:-` propagates both, like `?` and
      unwinding do. */
  datatype Outcome<+T> = Ok(value: T) | Err | Abort {

    predicate IsFailure() {
      !Ok?
    }

    function PropagateFailure<U>(): Outcome<U>
      requires IsFailure()
    {
      if Err? then Err else Abort
    }

    function Extract(): T
      requires Ok?
    {
      value
    }
  }

  function Pow2(k: nat): (r: nat)
    ensures r >= 1
  {
    if k == 0 then 1 else 2 * Pow2(k - 1)
  }

  /** `x & m` for the mask m whose one-bits are exactly the positions
      lo .. hi-1: the bits of x in that range, left in place. */
  function MaskBits(x: nat, lo: nat, hi: nat): nat
    requires lo <= hi
  {
    ((x / Pow2(lo)) % Pow2(hi - lo)) * Pow2(lo)
  }

  /** Quotient and remainder by the divisors used here are unique. */
  lemma DivModUnique(n: nat, k: nat, a: nat, r: nat)
    requires k == 2 || k == 4 || k == 8 || k == 16 || k == 64 || k == 0x100
    requires r < k && n == a * k + r
    ensures n / k == a && n % k == r
  {
  }

  /** A two-bit mask `x & (0b11 << k)` keeps bits k and k+1 of x in place:
      what remains of `x % 2^(k+2)` once its k lowest bits are cleared.
      The result fits a byte, so `as u8` keeps it. */
  lemma MaskPair0(x: nat)
    ensures AsU8(MaskBits(x, 0, 2)) == MaskBits(x, 0, 2) == x % 4
  {
    assert Pow2(2) == 4 by { assert Pow2(1) == 2; }
  }

  lemma MaskPair2(x: nat)
    ensures AsU8(MaskBits(x, 2, 4)) == MaskBits(x, 2, 4) == (x % 16) / 4 * 4
  {
    assert Pow2(2) == 4 by { assert Pow2(1) == 2; }
    var a := x / 16;
    var b := x % 16;
    var e := b / 4;
    assert x == a * 16 + b && b == e * 4 + b % 4 && e < 4;
    DivModUnique(x, 4, a * 4 + e, b % 4);
    DivModUnique(x / 4, 4, a, e);
  }

  lemma MaskPair4(x: nat)
    ensures AsU8(MaskBits(x, 4, 6)) == MaskBits(x, 4, 6) == (x % 64) / 16 * 16
  {
    assert Pow2(2) == 4 by { assert Pow2(1) == 2; }
    assert Pow2(4) == 16 by { assert Pow2(2) == 4; }
    var a := x / 64;
    var b := x % 64;
    var e := b / 16;
    assert x == a * 64 + b && b == e * 16 + b % 16 && e < 4;
    DivModUnique(x, 16, a * 4 + e, b % 16);
    DivModUnique(x / 16, 4, a, e);
  }

  lemma MaskPair6(x: nat)
    ensures AsU8(MaskBits(x, 6, 8)) == MaskBits(x, 6, 8) == (x % 256) / 64 * 64
  {
    assert Pow2(2) == 4 by { assert Pow2(1) == 2; }
    assert Pow2(6) == 64 by { assert Pow2(2) == 4; }
    var a := x / 256;
    var b := x % 256;
    var e := b / 64;
    assert x == a * 256 + b && b == e * 64 + b % 64 && e < 4;
    DivModUnique(x, 64, a * 4 + e, b % 64);
    DivModUnique(x / 64, 4, a, e);
  }

  /** Rust's truncating cast `as u8`. */
  function AsU8(x: nat): uint8 {
    x % 0x100
  }

  /** Reads bytes as an unsigned big-endian number. */
  function BigEndian(bs: seq<uint8>): nat {
    if |bs| == 0 then 0 else BigEndian(bs[..|bs| - 1]) * 0x100 + bs[|bs| - 1]
  }

  lemma BigEndianPair(d: seq<uint8>)
    requires |d| == 2
    ensures BigEndian(d) == d[0] as int * 0x100 + d[1]
  {
    var h := d[..1];
    assert BigEndian(h[..0]) == 0;
    assert BigEndian(h) == d[0];
  }

  lemma BigEndianTriple(d: seq<uint8>)
    requires |d| == 3
    ensures BigEndian(d) == d[0] as int * 0x1_0000 + d[1] as int * 0x100 + d[2]
  {
    BigEndianPair(d[..2]);
  }

  lemma BigEndianQuad(d: seq<uint8>)
    requires |d| == 4
    ensures BigEndian(d) == d[0] as int * 0x100_0000 + d[1] as int * 0x1_0000 + d[2] as int * 0x100 + d[3]
  {
    BigEndianTriple(d[..3]);
  }
}

=== FILE: event.dfy ===
/** Timed events and the MThd/MTrk chunks with their encoders, as in
    src/types/event.rs. */
module Event {
  import opened Base
  import opened Vlq
  import opened Message

  /** `MidiEvent`. */
  datatype MidiEvent =
    | ChannelEvent(channel: MidiChannelMessage)
    | MetaEventCase(meta: MetaEvent)
    | SysExEventCase(sysex: SysExEvent)

  /** `MidiEvent::raw`: the wrapped message's bytes, unchanged. */
  function EventRaw(e: MidiEvent): (r: Outcome<seq<uint8>>)
    ensures e.ChannelEvent? ==> r == ChannelRaw(e.channel)
    ensures e.MetaEventCase? ==> r == MetaRaw(e.meta)
    ensures e.SysExEventCase? ==> r == SysExRaw(e.sysex)
  {
    match e
    case ChannelEvent(m) => ChannelRaw(m)
    case MetaEventCase(m) => MetaRaw(m)
    case SysExEventCase(m) => SysExRaw(m)
  }

  /** `EventPair`: `time` is a delta time while the pair sits in a parsed
      track (it may also hold an absolute time). */
  datatype EventPair = EventPair(time: uint32, event: MidiEvent)

  /** `EventPair::new`. */
  function NewEventPair(time: uint32, event: MidiEvent): (p: EventPair)
    ensures p.time == time && p.event == event
  {
    EventPair(time, event)
  }

  /** `EventPair::event` and `EventPair::event_copy`: the stored event
      (by reference or cloned, which values do not distinguish). */
  function EventOf(p: EventPair): (e: MidiEvent)
    ensures NewEventPair(p.time, e) == p
  {
    p.event
  }

  predicate IsEndOfTrack(e: MidiEvent) {
    e.MetaEventCase? && e.meta.EndOfTrack?
  }

  /** A parsed track's event list: it ends with its first EndOfTrack. */
  predicate EndsTrack(events: seq<EventPair>) {
    && |events| > 0
    && IsEndOfTrack(events[|events| - 1].event)
    && forall i :: 0 <= i < |events| - 1 ==> !IsEndOfTrack(events[i].event)
  }

  lemma EndsTrackPrepend(e: EventPair, events: seq<EventPair>)
    requires EndsTrack(events) && !IsEndOfTrack(e.event)
    ensures EndsTrack([e] + events)
  {
    var es := [e] + events;
    assert forall i :: 1 <= i < |es| ==> es[i] == events[i - 1];
  }

  /** `EventPair::raw`: the time as a VLQ, then the event. A zero time panics
      in `to_vlq`. */
  function PairRaw(p: EventPair): (r: Outcome<seq<uint8>>)
    ensures r != Err
    ensures r.Abort? <==> p.time == 0 || EventRaw(p.event).Abort?
    ensures r.Ok? ==>
      var e := EventRaw(p.event).value;
      && |e| < |r.value|
      && r.value[|r.value| - |e|..] == e
      && FromVlq(r.value[..|r.value| - |e|]) == Ok(p.time)
  {
    var t :- ToVlq(p.time);
    var e :- EventRaw(p.event);
    assert (t + e)[..|t|] == t;
    VlqRoundTrip(p.time);
    Ok(t + e)
  }

  /** ASCII "MThd" and "MTrk". */
  const MThd: seq<uint8> := [0x4D, 0x54, 0x68, 0x64]
  const MTrk: seq<uint8> := [0x4D, 0x54, 0x72, 0x6B]

  /** `HeaderChunk`; `length` should be 6. */
  datatype HeaderChunk = HeaderChunk(length: uint32, format: uint16, tracks: uint16, resolution: uint16)

  /** `TrackChunk`; `length` is the declared body size, not checked against
      the events. */
  datatype TrackChunk = TrackChunk(length: uint32, events: seq<EventPair>)

  /** `MidiChunk`. */
  datatype MidiChunk = Header(header: HeaderChunk) | Track(track: TrackChunk)

  /** The four length bytes both chunk encoders write:
      `(len & (0xFF << k)) as u8` for k = 3, 2, 1, then `len & 0xFF`. */
  /** Since the shift is applied to the mask and not to the length, every
      byte is the low byte of the length with its k lowest bits cleared. */
  function LengthBytes(len: uint32): (r: seq<uint8>)
    ensures |r| == 4
    ensures r[0] == (len % 0x100) / 8 * 8 && r[1] == (len % 0x100) / 4 * 4
    ensures r[2] == (len % 0x100) / 2 * 2 && r[3] == len % 0x100
  {
    ClearedByte(len, 3);
    ClearedByte(len, 2);
    ClearedByte(len, 1);
    LowByte(len);
    [AsU8(MaskBits(len, 3, 11)), AsU8(MaskBits(len, 2, 10)), AsU8(MaskBits(len, 1, 9)), AsU8(MaskBits(len, 0, 8))]
  }

  /** The two bytes written for a u16 header field:
      `(x & (0xFF << 1)) as u8`, then `x & 0xFF`: the low byte twice, the
      first time with bit 0 cleared. */
  function ShortBytes(x: uint16): (r: seq<uint8>)
    ensures |r| == 2
    ensures r[0] == (x % 0x100) / 2 * 2 && r[1] == x % 0x100
  {
    ClearedByte(x, 1);
    LowByte(x);
    [AsU8(MaskBits(x, 1, 9)), AsU8(MaskBits(x, 0, 8))]
  }

  /** `(x & (0xFF << k)) as u8` keeps bits k to 7 of `x`. */
  lemma ClearedByte(x: nat, k: nat)
    requires 1 <= k <= 3
    ensures AsU8(MaskBits(x, k, k + 8)) == (x % 0x100) / Pow2(k) * Pow2(k)
  {
    SmallPowers();
    var q := Pow2(k);
    assert MaskBits(x, k, k + 8) == ((x / q) % 0x100) * q;
    if k == 1 {
      ClearedBits2(x);
    } else if k == 2 {
      ClearedBits4(x);
    } else {
      ClearedBits8(x);
    }
  }

  /** Dividing by a power of two and multiplying back, modulo 256. */
  lemma ClearedBits2(x: nat)
    ensures ((x / 2) % 0x100) * 2 % 0x100 == (x % 0x100) / 2 * 2
  {
    var a := x / 512;
    var b := x % 512;
    var c := b / 0x100;
    var d := b % 0x100;
    var e := d / 2;
    assert x == a * 512 + b && b == c * 0x100 + d && d == e * 2 + d % 2;
    assert c < 2 && e < 128;
    DivModUnique(x, 0x100, a * 2 + c, d);
    DivModUnique(x, 2, a * 0x100 + c * 128 + e, d % 2);
    DivModUnique(x / 2, 0x100, a, c * 128 + e);
    DivModUnique(c * 0x100 + e * 2, 0x100, c, e * 2);
  }

  lemma ClearedBits4(x: nat)
    ensures ((x / 4) % 0x100) * 4 % 0x100 == (x % 0x100) / 4 * 4
  {
    var a := x / 1024;
    var b := x % 1024;
    var c := b / 0x100;
    var d := b % 0x100;
    var e := d / 4;
    assert x == a * 1024 + b && b == c * 0x100 + d && d == e * 4 + d % 4;
    assert c < 4 && e < 64;
    DivModUnique(x, 0x100, a * 4 + c, d);
    DivModUnique(x, 4, a * 0x100 + c * 64 + e, d % 4);
    DivModUnique(x / 4, 0x100, a, c * 64 + e);
    DivModUnique(c * 0x100 + e * 4, 0x100, c, e * 4);
  }

  lemma ClearedBits8(x: nat)
    ensures ((x / 8) % 0x100) * 8 % 0x100 == (x % 0x100) / 8 * 8
  {
    var a := x / 2048;
    var b := x % 2048;
    var c := b / 0x100;
    var d := b % 0x100;
    var e := d / 8;
    assert x == a * 2048 + b && b == c * 0x100 + d && d == e * 8 + d % 8;
    assert c < 8 && e < 32;
    DivModUnique(x, 0x100, a * 8 + c, d);
    DivModUnique(x, 8, a * 0x100 + c * 32 + e, d % 8);
    DivModUnique(x / 8, 0x100, a, c * 32 + e);
    DivModUnique(c * 0x100 + e * 8, 0x100, c, e * 8);
  }

  /** `x & 0xFF` is the low byte. */
  lemma LowByte(x: nat)
    ensures AsU8(MaskBits(x, 0, 8)) == x % 0x100
  {
    assert Pow2(8) == 0x100 by {
      assert Pow2(4) == 16;
    }
  }

  /** `HeaderChunk::raw`. */
  function HeaderRaw(h: HeaderChunk): (r: seq<uint8>)
    ensures |r| == 14 && r[..4] == MThd
    ensures r[7] == h.length % 0x100 && r[9] == h.format % 0x100
    ensures r[11] == h.tracks % 0x100 && r[13] == h.resolution % 0x100
    ensures r[4..8] == LengthBytes(h.length) && r[8..10] == ShortBytes(h.format)
    ensures r[10..12] == ShortBytes(h.tracks) && r[12..14] == ShortBytes(h.resolution)
  {
    LowByte(h.length);
    LowByte(h.format);
    LowByte(h.tracks);
    LowByte(h.resolution);
    MThd + LengthBytes(h.length) + ShortBytes(h.format) + ShortBytes(h.tracks) + ShortBytes(h.resolution)
  }

  /** Total size of the encoded pairs, when each of them encodes. */
  function EncodedSize(events: seq<EventPair>): nat {
    if |events| == 0 then 0
    else (if PairRaw(events[0]).Ok? then |PairRaw(events[0]).value| else 0) + EncodedSize(events[1..])
  }

  /** The loop of `TrackChunk::raw`: every pair's bytes, in order. */
  function PairsRaw(events: seq<EventPair>): (r: Outcome<seq<uint8>>)
    ensures r != Err
    ensures r.Ok? ==> |r.value| == EncodedSize(events)
  {
    if |events| == 0 then Ok([])
    else
      var head :- PairRaw(events[0]);
      var tail :- PairsRaw(events[1..]);
      Ok(head + tail)
  }

  /** The track encodes exactly when every pair does. */
  lemma {:induction false} PairsRawOk(events: seq<EventPair>)
    ensures PairsRaw(events).Ok? <==> forall i :: 0 <= i < |events| ==> PairRaw(events[i]).Ok?
  {
    if |events| > 0 {
      var tail := events[1..];
      PairsRawOk(tail);
      PairsRawStep(events);
      if !PairRaw(events[0]).Ok? {
      } else if PairsRaw(tail).Ok? {
        forall i | 0 <= i < |events|
          ensures PairRaw(events[i]).Ok?
        {
          if i > 0 {
            assert events[i] == tail[i - 1];
          }
        }
      } else {
        var j :| 0 <= j < |tail| && !PairRaw(tail[j]).Ok?;
        assert events[j + 1] == tail[j];
      }
    }
  }

  /** A non-empty list of pairs encodes exactly when its head and its tail do. */
  lemma PairsRawStep(events: seq<EventPair>)
    requires |events| > 0
    ensures PairsRaw(events).Ok? <==> PairRaw(events[0]).Ok? && PairsRaw(events[1..]).Ok?
  {
  }

  /** `TrackChunk::raw`: "MTrk", the length bytes of the stored `length`
      (whatever the events are), then the pairs. */
  function TrackRaw(t: TrackChunk): (r: Outcome<seq<uint8>>)
    ensures r != Err
    ensures r.Ok? <==> forall i :: 0 <= i < |t.events| ==> PairRaw(t.events[i]).Ok?
    ensures r.Ok? ==> |r.value| == 8 + EncodedSize(t.events)
    ensures r.Ok? ==> r.value[..4] == MTrk && r.value[4..8] == LengthBytes(t.length)
    ensures r.Ok? ==> r.value[7] == t.length % 0x100
    ensures r.Ok? ==> PairsRaw(t.events).Ok? && r.value[8..] == PairsRaw(t.events).value
  {
    PairsRawOk(t.events);
    var body :- PairsRaw(t.events);
    LowByte(t.length);
    Ok(MTrk + LengthBytes(t.length) + body)
  }

  /** `MidiChunk::raw`: the inner chunk's bytes. */
  function ChunkRaw(c: MidiChunk): (r: Outcome<seq<uint8>>)
    ensures c.Header? ==> r == Ok(HeaderRaw(c.header))
    ensures c.Track? ==> r == TrackRaw(c.track)
  {
    match c
    case Header(h) => Ok(HeaderRaw(h))
    case Track(t) => TrackRaw(t)
  }

  lemma SmallPowers()
    ensures Pow2(1) == 2 && Pow2(2) == 4 && Pow2(3) == 8 && Pow2(8) == 0x100
  {
    assert Pow2(4) == 16;
  }

  /** The length fields are masked, not split into bytes: a header with
      the standard values comes out as 00 04 06 06 / 00 01 / 02 02 / E0 E0. */
  lemma HeaderRawExample()
    ensures HeaderRaw(HeaderChunk(6, 1, 2, 480)) == MThd + [0, 4, 6, 6, 0, 1, 2, 2, 0xE0, 0xE0]
  {
    SmallPowers();
    assert LengthBytes(6) == [0, 4, 6, 6];
    assert ShortBytes(1) == [0, 1];
    assert ShortBytes(2) == [2, 2];
    assert ShortBytes(480) == [0xE0, 0xE0];
  }

  /** Track lengths 0 and 256 are written alike. */
  lemma TrackLengthCollision()
    ensures LengthBytes(0) == LengthBytes(256) == [0, 0, 0, 0]
  {
    SmallPowers();
  }
}

=== FILE: message.dfy ===
/** Channel, meta and system-exclusive messages and their byte encoders
    (`raw()`), as in src/types/message.rs. */
module Message {
  import opened Base
  import opened Vlq

  /** `MidiChannelMessage`: a voice message or a mode message. */
  datatype MidiChannelMessage =
    | Voice(voice: ChannelVoiceMessage)
    | Mode(mode: ChannelModeMessage)

  datatype ChannelVoiceMessage =
    | NoteOff(channel: uint8, key: uint8, vel: uint8)
    | NoteOn(channel: uint8, key: uint8, vel: uint8)
    | PolyphonicKeyPressure(channel: uint8, key: uint8, vel: uint8)
    | ControllerChange(channel: uint8, cc: uint8, value: uint8)
    | ProgramChange(channel: uint8, vel: uint8)
    | ChannelKeyPressure(channel: uint8, vel: uint8)
    | PitchBend(channel: uint8, lsb: uint8, msb: uint8)

  /** Only the three mode messages the crate declares. */
  datatype ChannelModeMessage =
    | AllSoundOff(channel: uint8)
    | ResetAllControllers(channel: uint8)
    | AllNotesOff(channel: uint8)

  /** `MidiChannelMessage::channel`; the inner `channel()` methods are the
      shared `channel` field. */
  function Channel(m: MidiChannelMessage): (c: uint8)
    ensures c < 16 ==> ChannelRaw(m).Ok? && ChannelRaw(m).value[0] % 16 == c
  {
    match m
    case Voice(v) => v.channel
    case Mode(md) => md.channel
  }

  /** The high nibble of the status byte, which names the voice message. */
  function VoiceBase(m: ChannelVoiceMessage): uint8 {
    match m
    case NoteOff(_, _, _) => 0x80
    case NoteOn(_, _, _) => 0x90
    case PolyphonicKeyPressure(_, _, _) => 0xA0
    case ControllerChange(_, _, _) => 0xB0
    case ProgramChange(_, _) => 0xC0
    case ChannelKeyPressure(_, _) => 0xD0
    case PitchBend(_, _, _) => 0xE0
  }

  /** `ChannelVoiceMessage::status_byte`: base plus channel in u8, which
      panics when the sum passes 0xFF. */
  function VoiceStatusByte(m: ChannelVoiceMessage): (r: Outcome<uint8>)
    ensures r != Err
    ensures r.Ok? <==> m.channel < 0x100 - VoiceBase(m)
    ensures r.Ok? ==> r.value == VoiceBase(m) + m.channel
    ensures m.channel < 16 ==> r.Ok? && r.value / 16 == VoiceBase(m) / 16 && r.value % 16 == m.channel
  {
    var s := VoiceBase(m) + m.channel;
    if s < 0x100 then Ok(s) else Abort
  }

  /** `ChannelModeMessage::status_byte`: every mode message is sent as a
      Control Change, 0xB0 plus channel. */
  function ModeStatusByte(m: ChannelModeMessage): (r: Outcome<uint8>)
    ensures r != Err
    ensures r.Ok? <==> m.channel < 0x50
    ensures r.Ok? ==> r.value == 0xB0 + m.channel
    ensures m.channel < 16 ==> r.Ok? && r.value / 16 == 0xB && r.value % 16 == m.channel
  {
    var s := 0xB0 + m.channel;
    if s < 0x100 then Ok(s) else Abort
  }

  /** Number of data bytes after the status byte. */
  function VoiceDataLength(m: ChannelVoiceMessage): nat {
    if m.ProgramChange? || m.ChannelKeyPressure? then 1 else 2
  }

  /** `raw()` of a voice message: the status byte, then the data bytes;
      pitch bend sends its lsb first. */
  function VoiceRaw(m: ChannelVoiceMessage): (r: Outcome<seq<uint8>>)
    ensures r != Err
    ensures r.Ok? <==> VoiceStatusByte(m).Ok?
    ensures r.Ok? ==> |r.value| == 1 + VoiceDataLength(m) && r.value[0] == VoiceStatusByte(m).value
    ensures r.Ok? && (m.NoteOff? || m.NoteOn? || m.PolyphonicKeyPressure?) ==> r.value[1..] == [m.key, m.vel]
    ensures r.Ok? && m.ControllerChange? ==> r.value[1..] == [m.cc, m.value]
    ensures r.Ok? && (m.ProgramChange? || m.ChannelKeyPressure?) ==> r.value[1..] == [m.vel]
    ensures r.Ok? && m.PitchBend? ==> r.value[1] == m.lsb && r.value[2] == m.msb
  {
    var s :- VoiceStatusByte(m);
    match m
    case NoteOn(_, key, vel) => Ok([s, key, vel])
    case NoteOff(_, key, vel) => Ok([s, key, vel])
    case PolyphonicKeyPressure(_, key, vel) => Ok([s, key, vel])
    case ControllerChange(_, cc, value) => Ok([s, cc, value])
    case ProgramChange(_, vel) => Ok([s, vel])
    case ChannelKeyPressure(_, vel) => Ok([s, vel])
    case PitchBend(_, lsb, msb) => Ok([s, lsb, msb])
  }

  /** Channels are not range-checked: NoteOff on channel 16 is written
      with the status byte of NoteOn on channel 0, byte for byte. */
  lemma NoteOffChannelAlias(key: uint8, vel: uint8)
    ensures VoiceRaw(NoteOff(16, key, vel)) == VoiceRaw(NoteOn(0, key, vel)) == Ok([0x90, key, vel])
  {
  }

  /** The controller number a mode message is sent under. */
  function ModeController(m: ChannelModeMessage): uint8 {
    match m
    case AllSoundOff(_) => 0x78
    case ResetAllControllers(_) => 0x79
    case AllNotesOff(_) => 0x7B
  }

  /** `raw()` of a mode message: a Control Change whose controller lies in
      the mode range 120..127 and whose value is 0. */
  function ModeRaw(m: ChannelModeMessage): (r: Outcome<seq<uint8>>)
    ensures r != Err
    ensures r.Ok? <==> ModeStatusByte(m).Ok?
    ensures r.Ok? ==> |r.value| == 3 && r.value[0] == ModeStatusByte(m).value
    ensures r.Ok? ==> 120 <= r.value[1] <= 127 && r.value[2] == 0
    ensures r.Ok? ==> r.value[1] == (if m.AllSoundOff? then 0x78 else if m.ResetAllControllers? then 0x79 else 0x7B)
  {
    var s :- ModeStatusByte(m);
    Ok([s, ModeController(m), 0])
  }

  /** `raw()` of a channel message: the inner message's bytes. */
  function ChannelRaw(m: MidiChannelMessage): (r: Outcome<seq<uint8>>)
    ensures m.Voice? ==> r == VoiceRaw(m.voice)
    ensures m.Mode? ==> r == ModeRaw(m.mode)
  {
    match m
    case Voice(v) => VoiceRaw(v)
    case Mode(md) => ModeRaw(md)
  }

  /** `MetaEvent`. `SMTPEOffset` keeps the crate's spelling. */
  datatype MetaEvent =
    | SequenceNumber(number: uint16)
    | TextEvent(length: uint32, text: seq<uint8>)
    | CopyrightNotice(length: uint32, text: seq<uint8>)
    | SequenceTrackName(length: uint32, text: seq<uint8>)
    | InstrumentName(length: uint32, text: seq<uint8>)
    | Lyric(length: uint32, text: seq<uint8>)
    | Marker(length: uint32, text: seq<uint8>)
    | CuePoint(length: uint32, text: seq<uint8>)
    | MIDIChannelPrefix(channel: uint8)
    | EndOfTrack
    | SetTempo(tempo: uint32)
    | SMTPEOffset(smtpe: uint32, frame: uint8)
    | TimeSignature(numerator: uint8, denominator: uint8, clocks: uint8, notes: uint8)
    | KeySignature(sf: uint8, minor: uint8)
    | SequencerSpecific(length: uint32, id: uint8, data: uint8)

  /** The seven text-bearing meta events. */
  predicate IsText(m: MetaEvent) {
    m.TextEvent? || m.CopyrightNotice? || m.SequenceTrackName? || m.InstrumentName?
    || m.Lyric? || m.Marker? || m.CuePoint?
  }

  /** The meta type byte written after 0xFF. */
  function MetaCode(m: MetaEvent): uint8 {
    match m
    case SequenceNumber(_) => 0x00
    case TextEvent(_, _) => 0x01
    case CopyrightNotice(_, _) => 0x02
    case SequenceTrackName(_, _) => 0x03
    case InstrumentName(_, _) => 0x04
    case Lyric(_, _) => 0x05
    case Marker(_, _) => 0x06
    case CuePoint(_, _) => 0x07
    case MIDIChannelPrefix(_) => 0x20
    case EndOfTrack => 0x2F
    case SetTempo(_) => 0x51
    case SMTPEOffset(_, _) => 0x54
    case TimeSignature(_, _, _, _) => 0x58
    case KeySignature(_, _) => 0x59
    case SequencerSpecific(_, _, _) => 0x7F
  }

  /** `head ++ to_vlq(len) ++ payload`, the framing of text meta events,
      sequencer-specific events and sysex. The stored length is written,
      whatever the payload's size; a zero length panics in `to_vlq`. */
  function Framed(head: seq<uint8>, len: uint32, payload: seq<uint8>): (r: Outcome<seq<uint8>>)
    ensures r.Abort? <==> len == 0
    ensures r != Err
    ensures r.Ok? ==> |r.value| > |head| + |payload|
    ensures r.Ok? ==> r.value[..|head|] == head && r.value[|r.value| - |payload|..] == payload
    ensures r.Ok? ==> FromVlq(r.value[|head|..|r.value| - |payload|]) == Ok(len)
  {
    var l :- ToVlq(len);
    var out := head + l + payload;
    assert out[|head|..|out| - |payload|] == l;
    VlqRoundTrip(len);
    Ok(out)
  }

  /** `raw()` of a meta event. SequenceNumber, SetTempo and SMTPEOffset are
      written with the crate's masks (`number & 0b1100`, `tempo & 0b110000`,
      ...), not as big-endian bytes. */
  function MetaRaw(m: MetaEvent): (r: Outcome<seq<uint8>>)
    ensures r != Err
    ensures r.Abort? <==> (IsText(m) || m.SequencerSpecific?) && m.length == 0
    ensures r.Ok? ==> |r.value| >= 3 && r.value[0] == 0xFF && r.value[1] == MetaCode(m)
  {
    if IsText(m) then
      // the seven `_helper(code, *length, text)` arms
      Framed([0xFF, MetaCode(m)], m.length, m.text)
    else OtherMetaRaw(m)
  }

  /** The arms of `raw()` for the types that are not text events. */
  function OtherMetaRaw(m: MetaEvent): (r: Outcome<seq<uint8>>)
    requires !IsText(m)
    ensures r != Err
    ensures r.Abort? <==> m.SequencerSpecific? && m.length == 0
    ensures r.Ok? ==> |r.value| >= 3 && r.value[0] == 0xFF && r.value[1] == MetaCode(m)
  {
    match m
    case SequenceNumber(n) =>
      Ok([0xFF, 0x00, 0x02, AsU8(MaskBits(n, 2, 4)), AsU8(MaskBits(n, 0, 2))])
    case MIDIChannelPrefix(channel) => Ok([0xFF, 0x20, 0x01, channel])
    case EndOfTrack => Ok([0xFF, 0x2F, 0x00])
    case SetTempo(tempo) =>
      Ok([0xFF, 0x51, 0x03, AsU8(MaskBits(tempo, 4, 6)), AsU8(MaskBits(tempo, 2, 4)), AsU8(MaskBits(tempo, 0, 2))])
    case SMTPEOffset(smtpe, frame) =>
      Ok([0xFF, 0x54, 0x05, AsU8(MaskBits(smtpe, 6, 8)), AsU8(MaskBits(smtpe, 4, 6)),
        AsU8(MaskBits(smtpe, 2, 4)), AsU8(MaskBits(smtpe, 0, 2)), frame])
    case TimeSignature(numerator, denominator, clocks, notes) =>
      Ok([0xFF, 0x58, 0x04, numerator, denominator, clocks, notes])
    case KeySignature(sf, minor) => Ok([0xFF, 0x59, 0x02, sf, minor])
    case SequencerSpecific(length, id, data) => Framed([0xFF, 0x7F], length, [id, data])
  }

  /** `SequenceNumber` writes the masks `0b1100` and `0b0011`: bits 3-2 and
      bits 1-0 of the number in place, so only its low four bits survive. */
  lemma SequenceNumberBytes(n: uint16)
    ensures MetaRaw(SequenceNumber(n)) == Ok([0xFF, 0x00, 0x02, (n % 16) / 4 * 4, n % 4])
  {
    MaskPair2(n);
    MaskPair0(n);
  }

  /** `SetTempo` writes the masks `0b110000`, `0b001100` and `0b000011`:
      bits 5-4, 3-2 and 1-0 of the tempo in place. */
  lemma SetTempoBytes(t: uint32)
    ensures MetaRaw(SetTempo(t)) == Ok([0xFF, 0x51, 0x03, (t % 64) / 16 * 16, (t % 16) / 4 * 4, t % 4])
  {
    MaskPair4(t);
    MaskPair2(t);
    MaskPair0(t);
  }

  /** `SMTPEOffset` writes the masks `0b11000000` down to `0b00000011`:
      the four bit pairs of the offset's low byte, each in place, then the
      frame. */
  lemma SmpteBytes(s: uint32, frame: uint8)
    ensures MetaRaw(SMTPEOffset(s, frame)) ==
      Ok([0xFF, 0x54, 0x05, (s % 256) / 64 * 64, (s % 64) / 16 * 16, (s % 16) / 4 * 4, s % 4, frame])
  {
    MaskPair6(s);
    MaskPair4(s);
    MaskPair2(s);
    MaskPair0(s);
  }

  /** `SysExEvent`; for F0 the payload conventionally ends with 0xF7. */
  datatype SysExEvent =
    | SysExF0(length: uint32, data: seq<uint8>)
    | SysExF7(length: uint32, data: seq<uint8>)

  function SysExPrefix(m: SysExEvent): uint8 {
    if m.SysExF0? then 0xF0 else 0xF7
  }

  /** `raw()` of a sysex event: prefix, VLQ length, payload. */
  function SysExRaw(m: SysExEvent): (r: Outcome<seq<uint8>>)
    ensures r != Err
    ensures r.Abort? <==> m.length == 0
    ensures r.Ok? ==> |r.value| > 1 + |m.data|
    ensures r.Ok? ==> r.value[0] == SysExPrefix(m) && r.value[|r.value| - |m.data|..] == m.data
    ensures r.Ok? ==> FromVlq(r.value[1..|r.value| - |m.data|]) == Ok(m.length)
  {
    // both arms call `_helper(prefix, *length, data)`
    Framed([SysExPrefix(m)], m.length, m.data)
  }
}

=== FILE: parser.dfy ===
/** `SmfParser` of src/file/parser.rs: a byte reader plus the running-status
    register, decoding chunks, timed events and messages. Each method of the
    parser becomes a function from the parser before the call to what it
    returns and the parser after it. */
module Parser {
  import opened Base
  import opened Vlq
  import opened Message
  import opened Event
  import opened Reader

  datatype SmfParser = SmfParser(reader: SmfReader, runningStatus: Option<uint8>)

  /** What a parser method returns, and the parser as the call leaves it
      (also after an `Err`: bytes read before the error stay consumed). */
  datatype Parsed<+T> = Parsed(out: Outcome<T>, rest: SmfParser) {

    predicate IsFailure() {
      !out.Ok?
    }

    function PropagateFailure<U>(): Parsed<U>
      requires IsFailure()
    {
      Parsed(out.PropagateFailure(), rest)
    }

    function Extract(): (T, SmfParser)
      requires !IsFailure()
    {
      (out.value, rest)
    }
  }

  /** q is p after reading on: same data, and the pointer either stayed or
      moved forward without passing the end. */
  predicate Follows(p: SmfParser, q: SmfParser) {
    && q.reader.data == p.reader.data
    && (q.reader.pointer == p.reader.pointer
        || p.reader.pointer < q.reader.pointer <= |p.reader.data|)
  }

  lemma FollowsTransitive(p: SmfParser, q: SmfParser, s: SmfParser)
    requires Follows(p, q) && Follows(q, s)
    ensures Follows(p, s)
  {
  }

  /** `SmfParser::new`: no running status recorded yet. */
  function New(reader: SmfReader): (p: SmfParser)
    ensures p.reader == reader && p.runningStatus == None
  {
    SmfParser(reader, None)
  }

  /** `self.reader.next_bytes(n).ok_or(..)?`. */
  function ReadBytes(p: SmfParser, n: nat): (r: Parsed<seq<uint8>>)
    ensures r.out != Abort && r.rest.runningStatus == p.runningStatus
    ensures r.out.Ok? <==> p.reader.pointer + n <= |p.reader.data|
    ensures r.out.Ok? ==>
      && r.out.value == p.reader.data[p.reader.pointer..p.reader.pointer + n]
      && r.rest.reader == p.reader.(pointer := p.reader.pointer + n)
    ensures r.out.Err? ==> r.rest == p
  {
    var (bytes, rd) := NextBytes(p.reader, n);
    if bytes.None? then Parsed(Err, p) else Parsed(Ok(bytes.value), p.(reader := rd))
  }

  /** `self.reader.next_bytes(1).ok_or(..)?[0]`. */
  function ReadByte(p: SmfParser): (r: Parsed<uint8>)
    ensures r.out != Abort && r.rest.runningStatus == p.runningStatus
    ensures r.out.Ok? <==> p.reader.pointer < |p.reader.data|
    ensures r.out.Ok? ==>
      && r.out.value == p.reader.data[p.reader.pointer]
      && r.rest.reader == p.reader.(pointer := p.reader.pointer + 1)
    ensures r.out.Err? ==> r.rest == p
  {
    var (bytes, q) :- ReadBytes(p, 1);
    Parsed(Ok(bytes[0]), q)
  }

  /** A VLQ read from r would end at byte q - 1: every byte from the
      pointer up to it has the continuation bit, that one does not. */
  ghost predicate VlqEndsAt(r: SmfReader, q: nat) {
    && r.pointer < q <= |r.data|
    && r.data[q - 1] < 0x80
    && forall k :: r.pointer <= k < q - 1 ==> r.data[k] >= 0x80
  }

  /** No byte from the pointer on ends a VLQ. */
  ghost predicate NoVlqEnd(r: SmfReader) {
    forall k :: r.pointer <= k < |r.data| ==> r.data[k] >= 0x80
  }

  /** The loop of `parse_vlq`: bytes are read one at a time onto `bin`
      until one below 0x80 has been read, or the input ends. */
  function ReadVlqBytes(r: SmfReader, bin: seq<uint8>): (res: (Option<seq<uint8>>, SmfReader))
    ensures res.1.data == r.data
    ensures res.0.Some? ==>
      && VlqEndsAt(r, res.1.pointer)
      && res.0.value == bin + r.data[r.pointer..res.1.pointer]
    ensures res.0.None? ==>
      && NoVlqEnd(r)
      && res.1.pointer == (if r.pointer <= |r.data| then |r.data| else r.pointer)
    decreases |r.data| - r.pointer
  {
    var (bytes, r1) := NextBytes(r, 1);
    match bytes
    case None => (None, r1)
    case Some(b) =>
      var byte := b[0];
      if byte < 128 then (Some(bin + [byte]), r1)
      else
        var res := ReadVlqBytes(r1, bin + [byte]);
        assert res.0.Some? ==> bin + [byte] + r.data[r1.pointer..res.1.pointer] == bin + r.data[r.pointer..res.1.pointer];
        res
  }

  /** `parse_vlq`: consumes the bytes up to and including the first one
      below 0x80 and decodes them. Running out of input is an `Err`;
      more than four bytes trip the `assert!`. */
  function ParseVlq(p: SmfParser): (r: Parsed<uint32>)
    ensures r.rest.runningStatus == p.runningStatus && Follows(p, r.rest)
    ensures r.out.Err? <==> NoVlqEnd(p.reader)
    ensures !r.out.Err? ==> VlqEndsAt(p.reader, r.rest.reader.pointer)
    ensures r.out.Abort? <==> !r.out.Err? && r.rest.reader.pointer - p.reader.pointer > 4
    ensures r.out.Ok? ==> r.out.value == VlqValue(p.reader.data[p.reader.pointer..r.rest.reader.pointer])
  {
    var (bin, rd) := ReadVlqBytes(p.reader, []);
    var q := p.(reader := rd);
    if bin.None? then Parsed(Err, q)
    else if |bin.value| > 4 then Parsed(Abort, q)
    else
      assert bin.value == p.reader.data[p.reader.pointer..rd.pointer];
      Parsed(FromVlq(bin.value), q)
  }

  /** Data bytes that follow a channel status byte. */
  function DataCount(head: uint8): nat {
    if 0xC0 <= head < 0xE0 then 1 else 2
  }

  /** The status base of the message decoded from `head`: its high nibble,
      except that 0xAn yields a NoteOn. */
  function DecodedBase(head: uint8): uint8 {
    if head / 16 == 0xA then 0x90 else head / 16 * 16
  }

  /** The arms of the `match head` in `parse_channel_message`: the message a
      status byte and its data bytes decode to (`second` is unused by the
      one-data-byte messages). 0xAn decodes as a NoteOn, 0xEn takes the msb
      first, and Control Change is never turned into a mode message. */
  function DecodeVoice(head: uint8, first: uint8, second: uint8): (m: ChannelVoiceMessage)
    requires 0x80 <= head < 0xF0
    ensures m.channel == head % 16 && VoiceBase(m) == DecodedBase(head)
    ensures VoiceDataLength(m) == DataCount(head)
    ensures (m.NoteOff? || m.NoteOn?) ==> m.key == first && m.vel == second
    ensures m.ControllerChange? ==> m.cc == first && m.value == second
    ensures (m.ProgramChange? || m.ChannelKeyPressure?) ==> m.vel == first
    ensures m.PitchBend? ==> m.msb == first && m.lsb == second
    ensures !m.PolyphonicKeyPressure?
  {
    if head <= 0x8F then NoteOff(head - 0x80, first, second)
    else if head <= 0x9F then NoteOn(head - 0x90, first, second)
    else if head <= 0xAF then NoteOn(head - 0xA0, first, second)
    else if head <= 0xBF then ControllerChange(head - 0xB0, first, second)
    else if head <= 0xCF then ProgramChange(head - 0xC0, first)
    else if head <= 0xDF then ChannelKeyPressure(head - 0xD0, first)
    else PitchBend(head - 0xE0, second, first)
  }

  /** `parse_channel_message` once the status `head` is known: the data
      bytes are read one at a time (a second missing byte leaves the first
      consumed); a status from 0xF0 up reaches `unimplemented!()`. */
  function ChannelBody(head: uint8, p: SmfParser): (r: Parsed<MidiChannelMessage>)
    ensures r.rest.runningStatus == p.runningStatus && Follows(p, r.rest)
    ensures r.out.Abort? <==> !(0x80 <= head < 0xF0)
    ensures r.out.Err? ==> p.reader.pointer + DataCount(head) > |p.reader.data|
    ensures r.out.Ok? ==>
      && r.rest.reader.pointer == p.reader.pointer + DataCount(head)
      && r.out.value.Voice?
      && r.out.value.voice.channel == head % 16
      && VoiceBase(r.out.value.voice) == DecodedBase(head)
  {
    if !(0x80 <= head < 0xF0) then Parsed(Abort, p)
    else
      var (first, p1) :- ReadByte(p);
      if DataCount(head) == 1 then Parsed(Ok(Voice(DecodeVoice(head, first, 0))), p1)
      else
        var (second, p2) :- ReadByte(p1);
        Parsed(Ok(Voice(DecodeVoice(head, first, second))), p2)
  }

  /** `parse_channel_message`. A first byte from 0x80 up is consumed and
      recorded as the running status; a first byte below 0x80 is left in
      place and the recorded status is used, which panics when there is
      none. */
  function ParseChannelMessage(p: SmfParser): (r: Parsed<MidiChannelMessage>)
    ensures Follows(p, r.rest)
    ensures p.reader.pointer + 1 >= |p.reader.data| ==> r == Parsed(Err, p)
    ensures p.reader.pointer + 1 < |p.reader.data| && p.reader.data[p.reader.pointer] >= 0x80 ==>
      var head := p.reader.data[p.reader.pointer];
      && r.rest.runningStatus == Some(head)
      && r.rest.reader.pointer > p.reader.pointer
      && (r.out.Ok? ==>
            && r.rest.reader.pointer == p.reader.pointer + 1 + DataCount(head)
            && r.out.value.Voice?
            && r.out.value.voice.channel == head % 16
            && VoiceBase(r.out.value.voice) == DecodedBase(head))
    ensures p.reader.pointer + 1 < |p.reader.data| && p.reader.data[p.reader.pointer] < 0x80 ==>
      && r.rest.runningStatus == p.runningStatus
      && (p.runningStatus.None? ==> r.out.Abort?)
      && (r.out.Ok? ==>
            var head := p.runningStatus.value;
            && r.rest.reader.pointer == p.reader.pointer + DataCount(head)
            && r.out.value.Voice?
            && r.out.value.voice.channel == head % 16
            && VoiceBase(r.out.value.voice) == DecodedBase(head))
  {
    var peek := SeekBytes(p.reader, 1);
    if peek.None? then Parsed(Err, p)
    else
      var rawHead := peek.value[0];
      if rawHead < 0x80 then
        match p.runningStatus
        case None => Parsed(Abort, p)
        case Some(head) => ChannelBody(head, p)
      else
        var (consumed, rd) := NextBytes(p.reader, 1);
        if consumed.None? then Parsed(Abort, p)
        else ChannelBody(rawHead, SmfParser(rd, Some(rawHead)))
  }

  /** The text meta event with type byte `code` (0x01 to 0x07). */
  function TextMeta(code: uint8, length: uint32, text: seq<uint8>): (m: MetaEvent)
    requires 0x01 <= code <= 0x07
    ensures IsText(m) && MetaCode(m) == code && m.length == length && m.text == text
  {
    if code == 0x01 then TextEvent(length, text)
    else if code == 0x02 then CopyrightNotice(length, text)
    else if code == 0x03 then SequenceTrackName(length, text)
    else if code == 0x04 then InstrumentName(length, text)
    else if code == 0x05 then Lyric(length, text)
    else if code == 0x06 then Marker(length, text)
    else CuePoint(length, text)
  }

  /** The payload size a fixed-size meta type must declare (`assert_eq!`
      on the length); `None` for the other types. */
  function FixedSize(meta: uint8): Option<nat> {
    if meta == 0x00 || meta == 0x59 then Some(2)
    else if meta == 0x2F then Some(0)
    else if meta == 0x51 then Some(3)
    else if meta == 0x54 then Some(5)
    else if meta == 0x58 then Some(4)
    else None
  }

  /** The event a fixed-size meta type builds from its payload. SMPTE
      offset reads `data[5]`, one past its five bytes, and panics. */
  function FixedMeta(meta: uint8, data: seq<uint8>): (r: Outcome<MetaEvent>)
    requires FixedSize(meta) == Some(|data|)
    ensures r != Err && (r.Abort? <==> meta == 0x54)
    ensures r.Ok? ==> MetaCode(r.value) == meta && Decoded(r.value) && !IsText(r.value)
    ensures r.Ok? && r.value.SequenceNumber? ==> r.value.number == BigEndian(data)
    ensures r.Ok? && r.value.SetTempo? ==> r.value.tempo == BigEndian(data)
  {
    if meta == 0x00 then
      BigEndianPair(data);
      Ok(SequenceNumber(data[0] as int * 0x100 + data[1]))
    else if meta == 0x2F then Ok(EndOfTrack)
    else if meta == 0x51 then
      BigEndianTriple(data);
      Ok(SetTempo(data[0] as int * 0x1_0000 + data[1] as int * 0x100 + data[2]))
    else if meta == 0x54 then Abort
    else if meta == 0x58 then Ok(TimeSignature(data[0], data[1], data[2], data[3]))
    else Ok(KeySignature(data[0], data[1]))
  }

  /** The meta events the parser can produce: never a channel prefix, an
      SMPTE offset or a sequencer-specific event. */
  predicate Decoded(m: MetaEvent) {
    !m.MIDIChannelPrefix? && !m.SMTPEOffset? && !m.SequencerSpecific?
  }

  /** A fixed-size meta type: its length, which must be the type's size
      (`assert_eq!`), then the payload. The end of track reads its zero
      payload bytes. */
  function FixedBody(meta: uint8, p: SmfParser): (r: Parsed<MetaEvent>)
    requires FixedSize(meta).Some?
    ensures r.rest.runningStatus == p.runningStatus && Follows(p, r.rest)
    ensures r.out.Ok? ==> FixedSize(MetaCode(r.out.value)).Some?
    ensures r.out.Ok? ==> MetaCode(r.out.value) == meta
    ensures ParseVlq(p).out.Ok? && ParseVlq(p).out.value != FixedSize(meta).value ==>
      r == Parsed(Abort, ParseVlq(p).rest)
    ensures r.out.Ok? ==>
      var q := ParseVlq(p).rest.reader.pointer;
      && ParseVlq(p).out == Ok(FixedSize(meta).value as uint32)
      && r.rest.reader.pointer == q + FixedSize(meta).value
  {
    var (length, p1) :- ParseVlq(p);
    if length != FixedSize(meta).value then Parsed(Abort, p1)
    else
      var (data, p2) :- ReadBytes(p1, length);
      Parsed(FixedMeta(meta, data), p2)
  }

  /** A length-prefixed meta type: its length, then that many bytes. Types
      0x08 and 0x09 then reach `unreachable!()` and 0x7F
      `unimplemented!()`. */
  function PayloadBody(meta: uint8, p: SmfParser): (r: Parsed<MetaEvent>)
    requires 0x01 <= meta <= 0x09 || meta == 0x7F
    ensures r.rest.runningStatus == p.runningStatus && Follows(p, r.rest)
    ensures r.out.Ok? ==> Decoded(r.out.value)
    ensures meta > 0x07 ==> !r.out.Ok?
    ensures r.out.Ok? ==>
      && IsText(r.out.value) && MetaCode(r.out.value) == meta
      && |r.out.value.text| == r.out.value.length
  {
    var (length, p1) :- ParseVlq(p);
    PayloadRest(meta, length, p1)
  }

  /** The part of `PayloadBody` after the length: the payload, then the
      event its type code selects. */
  function PayloadRest(meta: uint8, length: uint32, p1: SmfParser): (r: Parsed<MetaEvent>)
    requires 0x01 <= meta <= 0x09 || meta == 0x7F
    ensures r.rest.runningStatus == p1.runningStatus && Follows(p1, r.rest)
    ensures r.out.Ok? ==> Decoded(r.out.value)
    ensures meta > 0x07 ==> !r.out.Ok?
    ensures r.out.Ok? ==>
      && IsText(r.out.value) && MetaCode(r.out.value) == meta
      && r.out.value.length == length && |r.out.value.text| == length
    ensures r.out.Ok? ==>
      && p1.reader.pointer + length <= |p1.reader.data|
      && r.out.value.text == p1.reader.data[p1.reader.pointer..p1.reader.pointer + length]
      && r.rest.reader.pointer == p1.reader.pointer + length
  {
    var (payload, p2) :- ReadBytes(p1, length);
    if meta <= 0x07 then Parsed(Ok(TextMeta(meta, length, payload)), p2)
    else Parsed(Abort, p2)
  }

  /** `parse_meta_event` after 0xFF and the type byte; every type not
      listed (0x20 among them) is an `Err`. */
  function MetaBody(meta: uint8, p: SmfParser): (r: Parsed<MetaEvent>)
    ensures r.rest.runningStatus == p.runningStatus && Follows(p, r.rest)
    ensures r.out.Ok? ==> Decoded(r.out.value)
    ensures FixedSize(meta).None? && !(0x01 <= meta <= 0x09) && meta != 0x7F ==> r == Parsed(Err, p)
    ensures r.out.Ok? ==> MetaCode(r.out.value) == meta
    ensures r.out.Ok? && IsText(r.out.value) ==> |r.out.value.text| == r.out.value.length
  {
    if FixedSize(meta).Some? then
      var r := FixedBody(meta, p);
      assert r.out.Ok? ==> Decoded(r.out.value) && !IsText(r.out.value);
      r
    else if 0x01 <= meta <= 0x09 || meta == 0x7F then PayloadBody(meta, p)
    else Parsed(Err, p)
  }

  /** `parse_meta_event`: 0xFF (an `assert_eq!`), the type byte, then the
      type's body. */
  function ParseMetaEvent(p: SmfParser): (r: Parsed<MetaEvent>)
    ensures r.rest.runningStatus == p.runningStatus && Follows(p, r.rest)
    ensures r.out.Ok? ==> Decoded(r.out.value)
    ensures p.reader.pointer < |p.reader.data| && p.reader.data[p.reader.pointer] != 0xFF ==> r.out.Abort?
    ensures r.out.Ok? ==>
      && p.reader.pointer + 1 < |p.reader.data|
      && p.reader.data[p.reader.pointer] == 0xFF
      && MetaCode(r.out.value) == p.reader.data[p.reader.pointer + 1]
    ensures r.out.Ok? && IsText(r.out.value) ==> |r.out.value.text| == r.out.value.length
  {
    var (first, p1) :- ReadByte(p);
    if first != 0xFF then Parsed(Abort, p1)
    else
      var (meta, p2) :- ReadByte(p1);
      MetaBody(meta, p2)
  }

  /** `parse_sysex`: the prefix byte (consumed even when it is neither 0xF0
      nor 0xF7, which is an `Err`), a VLQ length and that many bytes. */
  function ParseSysex(p: SmfParser): (r: Parsed<SysExEvent>)
    ensures r.rest.runningStatus == p.runningStatus && Follows(p, r.rest)
    ensures r.out.Ok? ==>
      && |r.out.value.data| == r.out.value.length
      && p.reader.pointer < |p.reader.data|
      && SysExPrefix(r.out.value) == p.reader.data[p.reader.pointer]
  {
    var (b, rd) := NextBytes(p.reader, 1);
    var p1 := p.(reader := rd);
    if b.Some? && b.value[0] == 0xF0 then
      var (length, p2) :- ParseVlq(p1);
      var (data, p3) :- ReadBytes(p2, length);
      Parsed(Ok(SysExF0(length, data)), p3)
    else if b.Some? && b.value[0] == 0xF7 then
      var (length, p2) :- ParseVlq(p1);
      var (data, p3) :- ReadBytes(p2, length);
      Parsed(Ok(SysExF7(length, data)), p3)
    else
      Parsed(Err, p1)
  }

  /** `parse_midi_event`: peeks the first byte and dispatches. Bytes other
      than 0xFF, 0xF0 and 0xF7 all go to the channel parser. */
  function ParseMidiEvent(p: SmfParser): (r: Parsed<MidiEvent>)
    ensures Follows(p, r.rest)
    ensures p.reader.pointer + 1 >= |p.reader.data| ==> r == Parsed(Err, p)
    ensures r.rest.runningStatus == p.runningStatus
      || (p.reader.pointer < |p.reader.data|
          && r.rest.runningStatus == Some(p.reader.data[p.reader.pointer])
          && 0x80 <= p.reader.data[p.reader.pointer] < 0xFF
          && p.reader.data[p.reader.pointer] != 0xF0 && p.reader.data[p.reader.pointer] != 0xF7)
    ensures r.out.Ok? && !r.out.value.ChannelEvent? ==> r.rest.runningStatus == p.runningStatus
  {
    var peek := SeekBytes(p.reader, 1);
    if peek.None? then Parsed(Err, p)
    else
      var first := peek.value[0];
      if 0x80 <= first < 0xF0 then
        var (m, q) :- ParseChannelMessage(p);
        Parsed(Ok(ChannelEvent(m)), q)
      else if first == 0xFF then
        var (m, q) :- ParseMetaEvent(p);
        Parsed(Ok(MetaEventCase(m)), q)
      else if first == 0xF0 || first == 0xF7 then
        var (m, q) :- ParseSysex(p);
        Parsed(Ok(SysExEventCase(m)), q)
      else
        var (m, q) :- ParseChannelMessage(p);
        Parsed(Ok(ChannelEvent(m)), q)
  }

  /** `parse_mtrk_event`: a delta time, then an event. */
  function ParseMtrkEvent(p: SmfParser): (r: Parsed<EventPair>)
    ensures Follows(p, r.rest)
    ensures r.out.Ok? ==> p.reader.pointer < r.rest.reader.pointer
  {
    var (delta, p1) :- ParseVlq(p);
    var (event, p2) :- ParseMidiEvent(p1);
    Parsed(Ok(NewEventPair(delta, event)), p2)
  }

  /** `parse_mtrk_events`: pairs up to and including the first EndOfTrack.
      The declared chunk length plays no part. */
  function ParseMtrkEvents(p: SmfParser): (r: Parsed<seq<EventPair>>)
    ensures Follows(p, r.rest)
    ensures r.out.Ok? ==> EndsTrack(r.out.value)
    decreases |p.reader.data| - p.reader.pointer
  {
    var (pair, p1) :- ParseMtrkEvent(p);
    if IsEndOfTrack(EventOf(pair)) then Parsed(Ok([pair]), p1)
    else
      var (pairs, p2) :- ParseMtrkEvents(p1);
      EndsTrackPrepend(pair, pairs);
      Parsed(Ok([pair] + pairs), p2)
  }

  /** The MThd branch of `next_chunk`: length, format, track count and
      resolution are read one after another, a failed read leaving the
      pointer where it was, and any missing field is an `Err`. The declared
      length is not checked against 6, and the resolution is
      `(b0 << 1) + b1`, as written. */
  function HeaderBody(p: SmfParser): (r: Parsed<MidiChunk>)
    ensures Follows(p, r.rest) && r.rest.runningStatus == p.runningStatus
    ensures r.out != Abort
    ensures r.out.Ok? <==> p.reader.pointer + 10 <= |p.reader.data|
    ensures r.out.Ok? ==>
      var d, i, h := p.reader.data, p.reader.pointer, r.out.value;
      && h.Header?
      && h.header.length == BigEndian(d[i..i + 4])
      && h.header.format == BigEndian(d[i + 4..i + 6])
      && h.header.tracks == BigEndian(d[i + 6..i + 8])
      && h.header.resolution == d[i + 8] as int * 2 + d[i + 9]
  {
    var (length, rd1) := NextBytes(p.reader, 4);
    var (format, rd2) := NextBytes(rd1, 2);
    var (tracks, rd3) := NextBytes(rd2, 2);
    var (resolution, rd4) := NextBytes(rd3, 2);
    var q := p.(reader := rd4);
    if length.Some? && format.Some? && tracks.Some? && resolution.Some? then
      var l, f, t, res := length.value, format.value, tracks.value, resolution.value;
      BigEndianQuad(l);
      BigEndianPair(f);
      BigEndianPair(t);
      Parsed(Ok(Header(HeaderChunk(l[0] as int * 0x100_0000 + l[1] as int * 0x1_0000 + l[2] as int * 0x100 + l[3],
                                   f[0] as int * 0x100 + f[1],
                                   t[0] as int * 0x100 + t[1],
                                   res[0] as int * 2 + res[1]))), q)
    else
      Parsed(Err, q)
  }

  /** The declared track length as `next_chunk` reads it:
      `(b0 << 3) + (b1 << 2) + (b2 << 1) + b3`. */
  function TrackLengthOf(l: seq<uint8>): uint32
    requires |l| == 4
  {
    l[0] as int * 8 + l[1] as int * 4 + l[2] as int * 2 + l[3]
  }

  /** The MTrk branch of `next_chunk`: the length field, then the events up
      to the first EndOfTrack, whatever the length says. */
  function TrackBody(p: SmfParser): (r: Parsed<MidiChunk>)
    ensures Follows(p, r.rest)
    ensures p.reader.pointer + 4 > |p.reader.data| ==> r == Parsed(Err, p)
    ensures r.out.Ok? ==>
      && p.reader.pointer + 4 <= |p.reader.data|
      && r.out.value.Track?
      && r.out.value.track.length == TrackLengthOf(p.reader.data[p.reader.pointer..p.reader.pointer + 4])
      && EndsTrack(r.out.value.track.events)
  {
    var (length, rd) := NextBytes(p.reader, 4);
    if length.None? then Parsed(Err, p)
    else
      var (pairs, q) :- ParseMtrkEvents(p.(reader := rd));
      Parsed(Ok(Track(TrackChunk(TrackLengthOf(length.value), pairs))), q)
  }

  /** `next_chunk`: a four-byte tag, then an MThd or MTrk body; any other
      tag, or too few bytes for one, is an `Err`. */
  function NextChunk(p: SmfParser): (r: Parsed<MidiChunk>)
    ensures Follows(p, r.rest)
    ensures p.reader.pointer + 4 > |p.reader.data| ==> r == Parsed(Err, p)
    ensures p.reader.pointer + 4 <= |p.reader.data| ==>
      var d, i := p.reader.data, p.reader.pointer;
      && (d[i..i + 4] != MThd && d[i..i + 4] != MTrk ==> r.out == Err)
      && (d[i..i + 4] == MThd ==> (r.out.Ok? <==> i + 14 <= |d|) && (r.out.Ok? ==> r.out.value.Header?))
      && (d[i..i + 4] == MTrk && r.out.Ok? ==> r.out.value.Track?)
  {
    var (tag, rd) := NextBytes(p.reader, 4);
    if tag.None? then Parsed(Err, p)
    else if tag.value == MThd then HeaderBody(p.(reader := rd))
    else if tag.value == MTrk then TrackBody(p.(reader := rd))
    else Parsed(Err, p.(reader := rd))
  }

  /** `seek_if_track_end`: whether the next three bytes, peeked, are
      FF 2F 00; `Err` when they cannot be peeked. */
  function SeekIfTrackEnd(p: SmfParser): (r: Outcome<bool>)
    ensures r != Abort
    ensures r.Ok? <==> p.reader.pointer + 3 < |p.reader.data|
    ensures r.Ok? ==>
      (r.value <==> p.reader.data[p.reader.pointer..p.reader.pointer + 3] == [0xFF, 0x2F, 0x00])
  {
    var three := SeekBytes(p.reader, 3);
    if three.None? then Err else Ok(three.value == [0xFF, 0x2F, 0x00])
  }
}

=== FILE: reader.dfy ===
/** `SmfReader` of src/file/filerw.rs: the whole file in memory and a read
    pointer. The `_ref` variants borrow what the others copy; as values they
    are the same operation. */
module Reader {
  import opened Base

  datatype SmfReader = SmfReader(data: seq<uint8>, pointer: nat)

  /** The pointer lies within the data (or just past its end). */
  predicate Valid(r: SmfReader) {
    r.pointer <= |r.data|
  }

  /** `reset_pointer`: back to the start of the same data. */
  function ResetPointer(r: SmfReader): (r': SmfReader)
    ensures r'.data == r.data && r'.pointer == 0 && Valid(r')
  {
    r.(pointer := 0)
  }

  /** `next_bytes` / `next_bytes_ref`: the next n bytes, consumed. Fails,
      leaving the reader as it was, when fewer than n bytes remain. */
  function NextBytes(r: SmfReader, n: nat): (res: (Option<seq<uint8>>, SmfReader))
    ensures res.0.Some? <==> r.pointer + n <= |r.data|
    ensures res.0.Some? ==> res.0.value == r.data[r.pointer..r.pointer + n]
    ensures res.0.Some? ==> res.1.data == r.data && res.1.pointer == r.pointer + n
    ensures res.0.None? ==> res.1 == r
  {
    if r.pointer + n > |r.data| then (None, r)
    else (Some(r.data[r.pointer..r.pointer + n]), r.(pointer := r.pointer + n))
  }

  /** `seek_bytes` / `seek_bytes_ref`: the next n bytes without consuming
      them. The guard is `>=`, so it also fails when exactly n bytes
      remain. */
  function SeekBytes(r: SmfReader, n: nat): (res: Option<seq<uint8>>)
    ensures res.Some? <==> r.pointer + n < |r.data|
    ensures res.Some? ==> NextBytes(r, n).0 == res
  {
    if r.pointer + n >= |r.data| then None
    else Some(r.data[r.pointer..r.pointer + n])
  }

  /** Every reader operation keeps the pointer within the data. */
  lemma ValidPreserved(r: SmfReader, n: nat)
    requires Valid(r)
    ensures Valid(ResetPointer(r)) && Valid(NextBytes(r, n).1)
  {
  }

  /** Peeking exactly the remaining bytes fails where reading them succeeds. */
  lemma SeekRemainingFails(r: SmfReader)
    requires Valid(r)
    ensures SeekBytes(r, |r.data| - r.pointer).None?
    ensures NextBytes(r, |r.data| - r.pointer).0 == Some(r.data[r.pointer..])
  {
    assert r.data[r.pointer..r.pointer + (|r.data| - r.pointer)] == r.data[r.pointer..];
  }
}

=== FILE: roundtrip.dfy ===
/** What the parser makes of the bytes the encoders write: the round trips
    that hold, the ones the crate's encoder and decoder disagree on, and
    the running-status behaviour across events and tracks. */
module RoundTrip {
  import opened Base
  import opened Vlq
  import opened Message
  import opened Event
  import opened Reader
  import opened Parser

  /** The bytes at the parser's pointer start with `bs`. */
  predicate At(p: SmfParser, bs: seq<uint8>) {
    && p.reader.pointer + |bs| <= |p.reader.data|
    && p.reader.data[p.reader.pointer..p.reader.pointer + |bs|] == bs
  }

  /** The parser moved on by n bytes, running status unchanged. */
  function Skip(p: SmfParser, n: nat): SmfParser {
    p.(reader := p.reader.(pointer := p.reader.pointer + n))
  }

  lemma VlqEndUnique(r: SmfReader, q1: nat, q2: nat)
    requires VlqEndsAt(r, q1) && VlqEndsAt(r, q2)
    ensures q1 == q2
  {
  }

  /** `parse_vlq` reads exactly a well-formed VLQ of at most four bytes. */
  lemma ParseVlqAt(p: SmfParser, bs: seq<uint8>)
    requires IsVlq(bs) && |bs| <= 4 && At(p, bs)
    ensures ParseVlq(p) == Parsed(Ok(VlqValue(bs)), Skip(p, |bs|))
  {
    var q := p.reader.pointer + |bs|;
    VlqAt(p, bs);
    var r := ParseVlq(p);
    VlqEndUnique(p.reader, q, r.rest.reader.pointer);
    assert r.out.Ok?;
    assert r.out.value == VlqValue(bs) by {
      assert p.reader.data[p.reader.pointer..q] == bs;
    }
    assert r.rest == Skip(p, |bs|) by {
      assert r.rest.reader == p.reader.(pointer := q);
    }
  }

  /** A well-formed VLQ at the pointer is where a read ends. */
  lemma VlqAt(p: SmfParser, bs: seq<uint8>)
    requires IsVlq(bs) && At(p, bs)
    ensures VlqEndsAt(p.reader, p.reader.pointer + |bs|) && !NoVlqEnd(p.reader)
  {
    var i, n := p.reader.pointer, |bs|;
    var d := p.reader.data;
    assert d[i + n - 1] == bs[n - 1] < 0x80;
    assert forall k :: i <= k < i + n - 1 ==> d[k] == bs[k - i];
  }

  /** Every VLQ the encoder writes for a value below 2^28 is read back. */
  lemma ParseVlqOfToVlq(p: SmfParser, v: uint32)
    requires 0 < v < 0x1000_0000 && At(p, ToVlq(v).value)
    ensures ParseVlq(p) == Parsed(Ok(v), Skip(p, |ToVlq(v).value|))
  {
    ParseVlqAt(p, ToVlq(v).value);
  }

  /** From 2^28 up the encoder writes five bytes, and the parser's
      four-byte `assert!` panics on them. */
  lemma ParseVlqOfLongToVlq(p: SmfParser, v: uint32)
    requires v >= 0x1000_0000 && At(p, ToVlq(v).value)
    ensures |ToVlq(v).value| == 5
    ensures ParseVlq(p).out == Abort
  {
    var bs := ToVlq(v).value;
    var i, n := p.reader.pointer, |bs|;
    VlqValueBound(bs);
    Pow128Monotone(n, 4);
    VlqAt(p, bs);
    var r := ParseVlq(p);
    VlqEndUnique(p.reader, i + n, r.rest.reader.pointer);
  }

  lemma {:induction false} Pow128Monotone(m: nat, n: nat)
    ensures m <= n ==> Pow128(m) <= Pow128(n)
    decreases n
  {
    if m < n {
      Pow128Monotone(m, n - 1);
    }
  }

  /** The data bytes `bs` hold for a status `head`; the second is unused
      by one-data-byte messages. */
  function Second(bs: seq<uint8>): uint8 {
    if |bs| >= 2 then bs[1] else 0
  }

  /** An explicit status byte followed by its data bytes: the status is
      consumed and recorded, the data bytes decoded. */
  lemma ExplicitStatus(p: SmfParser, bs: seq<uint8>)
    requires |bs| >= 2 && 0x80 <= bs[0] < 0xF0 && |bs| == 1 + DataCount(bs[0]) && At(p, bs)
    ensures ParseChannelMessage(p)
      == Parsed(Ok(Voice(DecodeVoice(bs[0], bs[1], Second(bs[1..])))),
                Skip(p, |bs|).(runningStatus := Some(bs[0])))
  {
    var i := p.reader.pointer;
    var d := p.reader.data;
    assert d[i] == bs[0] && d[i + 1] == bs[1];
    assert |bs| == 3 ==> d[i + 2] == bs[2];
    var p1 := SmfParser(p.reader.(pointer := i + 1), Some(bs[0]));
    assert ParseChannelMessage(p) == ChannelBody(bs[0], p1);
    var r := ChannelBody(bs[0], p1);
    assert r.out.Ok?;
    assert r.rest == Skip(p, |bs|).(runningStatus := Some(bs[0]));
  }

  /** A data byte where a status is expected: the recorded status is used
      and nothing extra is consumed. */
  lemma RunningStatus(p: SmfParser, head: uint8, bs: seq<uint8>)
    requires p.runningStatus == Some(head) && 0x80 <= head < 0xF0
    requires |bs| == DataCount(head) && bs[0] < 0x80 && At(p, bs)
    requires p.reader.pointer + 1 < |p.reader.data|
    ensures ParseChannelMessage(p) == Parsed(Ok(Voice(DecodeVoice(head, bs[0], Second(bs)))), Skip(p, |bs|))
  {
    var i := p.reader.pointer;
    var d := p.reader.data;
    assert d[i] == bs[0];
    assert |bs| == 2 ==> d[i + 1] == bs[1];
    assert ParseChannelMessage(p) == ChannelBody(head, p);
    var r := ChannelBody(head, p);
    assert r.out.Ok?;
    assert r.rest == Skip(p, |bs|);
  }

  /** A data byte where a status is expected, with no status recorded:
      the `expect` panics. */
  lemma MissingRunningStatus(p: SmfParser)
    requires p.runningStatus == None
    requires p.reader.pointer + 1 < |p.reader.data| && p.reader.data[p.reader.pointer] < 0x80
    ensures ParseChannelMessage(p).out == Abort
    ensures ParseMidiEvent(p).out == Abort
  {
  }

  /** What the parser returns for a voice message the encoder wrote:
      polyphonic key pressure comes back as NoteOn, pitch bend with its
      two data bytes swapped. */
  function ReparsedVoice(m: ChannelVoiceMessage): ChannelVoiceMessage {
    match m
    case PolyphonicKeyPressure(channel, key, vel) => NoteOn(channel, key, vel)
    case PitchBend(channel, lsb, msb) => PitchBend(channel, msb, lsb)
    case _ => m
  }

  /** ... and a mode message comes back as the Control Change it is sent
      as. */
  function ReparsedChannel(m: MidiChannelMessage): MidiChannelMessage {
    match m
    case Voice(v) => Voice(ReparsedVoice(v))
    case Mode(md) => Voice(ControllerChange(md.channel, ModeController(md), 0))
  }

  lemma DecodeVoiceRaw(m: ChannelVoiceMessage)
    requires m.channel < 16
    ensures VoiceRaw(m).Ok?
    ensures var raw := VoiceRaw(m).value;
      && 0x80 <= raw[0] < 0xF0 && |raw| == 1 + DataCount(raw[0])
      && DecodeVoice(raw[0], raw[1], Second(raw[1..])) == ReparsedVoice(m)
  {
    var raw := VoiceRaw(m).value;
    assert raw[0] == VoiceBase(m) + m.channel;
  }

  /** Decoding the bytes of a channel message on channels 0 to 15 gives
      `ReparsedChannel` of it, consumes exactly those bytes and records
      their status byte as the running status. */
  lemma ChannelRoundTrip(p: SmfParser, m: MidiChannelMessage)
    requires Channel(m) < 16
    ensures ChannelRaw(m).Ok?
    ensures var raw := ChannelRaw(m).value;
      At(p, raw) ==>
        ParseChannelMessage(p) == Parsed(Ok(ReparsedChannel(m)), Skip(p, |raw|).(runningStatus := Some(raw[0])))
  {
    match m
    case Voice(v) =>
      DecodeVoiceRaw(v);
      var raw := VoiceRaw(v).value;
      if At(p, raw) {
        ExplicitStatus(p, raw);
      }
    case Mode(md) =>
      var raw := ModeRaw(md).value;
      assert raw[0] == 0xB0 + md.channel;
      if At(p, raw) {
        ExplicitStatus(p, raw);
      }
  }

  /** The bytes written for NoteOff on channel 16 are read back as NoteOn
      on channel 0. */
  lemma NoteOffChannelAliasRead(p: SmfParser, key: uint8, vel: uint8)
    requires At(p, VoiceRaw(NoteOff(16, key, vel)).value)
    ensures ParseChannelMessage(p).out == Ok(Voice(NoteOn(0, key, vel)))
  {
    NoteOffChannelAlias(key, vel);
    ExplicitStatus(p, [0x90, key, vel]);
  }

  /** Reading `a` and moving to status s leaves the parser at `b`, and
      skipping `b` from there is skipping `a + b`. */
  lemma SkipSplit(p: SmfParser, a: seq<uint8>, b: seq<uint8>, s: Option<uint8>)
    requires At(p, a + b)
    ensures At(Skip(p, |a|).(runningStatus := s), b)
    ensures Skip(Skip(p, |a|).(runningStatus := s), |b|) == Skip(p, |a + b|).(runningStatus := s)
  {
    AtSplit(p, a, b);
  }

  lemma AtSplit(p: SmfParser, a: seq<uint8>, b: seq<uint8>)
    requires At(p, a + b)
    ensures At(p, a) && At(Skip(p, |a|), b)
  {
    var i := p.reader.pointer;
    assert p.reader.data[i..i + |a|] == (a + b)[..|a|];
    assert p.reader.data[i + |a|..i + |a| + |b|] == (a + b)[|a|..];
  }

  /** The meta events the parser reads back: text events whose stored
      length is their size (and fits a four-byte VLQ), and the fixed-size
      types it decodes. */
  predicate MetaDecodable(m: MetaEvent) {
    || (IsText(m) && 0 < m.length < 0x1000_0000 && |m.text| == m.length)
    || m.SequenceNumber? || m.EndOfTrack? || m.SetTempo? || m.TimeSignature? || m.KeySignature?
  }

  /** What the parser returns for a meta event the encoder wrote: the
      sequence number and tempo come back as the big-endian value of the
      masked bytes. */
  function ReparsedMeta(m: MetaEvent): MetaEvent {
    match m
    case SequenceNumber(n) => SequenceNumber(AsU8(MaskBits(n, 2, 4)) * 0x100 + AsU8(MaskBits(n, 0, 2)))
    case SetTempo(t) =>
      SetTempo(AsU8(MaskBits(t, 4, 6)) * 0x1_0000 + AsU8(MaskBits(t, 2, 4)) * 0x100 + AsU8(MaskBits(t, 0, 2)))
    case _ => m
  }

  /** The default tempo 500000 (0x07A120) is written as 20 00 00 and read
      back as 0x200000. */
  lemma SetTempoExample()
    ensures ReparsedMeta(SetTempo(500000)) == SetTempo(0x20_0000)
  {
    assert Pow2(2) == 4 && Pow2(4) == 16 && Pow2(6) == 64 by {
      assert Pow2(1) == 2;
    }
  }

  /** `TextMeta` inverts `MetaCode` on the text events. */
  lemma TextMetaOfCode(m: MetaEvent)
    requires IsText(m)
    ensures TextMeta(MetaCode(m), m.length, m.text) == m
  {
  }

  /** The framing `head ++ to_vlq(len) ++ payload`, spelt out. */
  lemma FramedBytes(head: seq<uint8>, len: uint32, payload: seq<uint8>)
    requires len > 0
    ensures Framed(head, len, payload) == Ok(head + ToVlq(len).value + payload)
  {
  }

  /** 0xFF and a type byte lead to that type's body. */
  lemma MetaHead(p: SmfParser, code: uint8)
    requires At(p, [0xFF, code])
    ensures ParseMetaEvent(p) == MetaBody(code, Skip(p, 2))
  {
    var i := p.reader.pointer;
    assert p.reader.data[i] == 0xFF && p.reader.data[i + 1] == code;
    var p1 := Skip(p, 1);
    assert ReadByte(p) == Parsed(Ok(0xFF), p1);
    assert ReadByte(p1) == Parsed(Ok(code), Skip(p, 2));
  }

  /** Reading the bytes at the pointer. */
  lemma ReadAt(p: SmfParser, bs: seq<uint8>)
    requires At(p, bs)
    ensures ReadBytes(p, |bs|) == Parsed(Ok(bs), Skip(p, |bs|))
  {
    var r := ReadBytes(p, |bs|);
    assert r.out == Ok(bs);
    assert r.rest == Skip(p, |bs|);
  }

  /** A VLQ length followed by that many bytes. */
  lemma PayloadRead(p: SmfParser, len: uint32, payload: seq<uint8>)
    requires 0 < len < 0x1000_0000 && |payload| == len
    requires At(p, ToVlq(len).value + payload)
    ensures var n := |ToVlq(len).value|;
      && ParseVlq(p) == Parsed(Ok(len), Skip(p, n))
      && ReadBytes(Skip(p, n), len) == Parsed(Ok(payload), Skip(p, n + len))
  {
    var l := ToVlq(len).value;
    AtSplit(p, l, payload);
    ParseVlqOfToVlq(p, len);
    ReadAt(Skip(p, |l|), payload);
    assert Skip(Skip(p, |l|), len) == Skip(p, |l| + len);
  }

  /** A text body: the VLQ length and that many bytes of text. */
  lemma PayloadText(p: SmfParser, code: uint8, len: uint32, text: seq<uint8>)
    requires 0x01 <= code <= 0x07 && 0 < len < 0x1000_0000 && |text| == len
    requires At(p, ToVlq(len).value + text)
    ensures PayloadBody(code, p) == Parsed(Ok(TextMeta(code, len, text)), Skip(p, |ToVlq(len).value| + len))
  {
    PayloadRead(p, len, text);
    var r := PayloadBody(code, p);
    assert r.out == Ok(TextMeta(code, len, text));
    assert r.rest == Skip(p, |ToVlq(len).value| + len);
  }

  /** The text and sequencer-specific types go to the payload body. */
  lemma MetaBodyPayload(code: uint8, p: SmfParser)
    requires 0x01 <= code <= 0x09 || code == 0x7F
    ensures MetaBody(code, p) == PayloadBody(code, p)
  {
    assert FixedSize(code).None?;
  }

  /** A whole text event, byte by byte. */
  lemma TextBytes(p: SmfParser, code: uint8, len: uint32, text: seq<uint8>)
    requires 0x01 <= code <= 0x07 && 0 < len < 0x1000_0000 && |text| == len
    requires At(p, [0xFF, code] + (ToVlq(len).value + text))
    ensures ParseMetaEvent(p) == Parsed(Ok(TextMeta(code, len, text)), Skip(p, 2 + |ToVlq(len).value| + len))
  {
    var l := ToVlq(len).value;
    AtSplit(p, [0xFF, code], l + text);
    MetaHead(p, code);
    var p2 := Skip(p, 2);
    PayloadText(p2, code, len, text);
    MetaBodyPayload(code, p2);
    assert Skip(p2, |l| + len) == Skip(p, 2 + |l| + len);
  }

  /** The bytes of a text event. */
  lemma TextRaw(m: MetaEvent)
    requires IsText(m) && m.length > 0
    ensures MetaRaw(m) == Ok([0xFF, MetaCode(m)] + (ToVlq(m.length).value + m.text))
  {
    var head, l := [0xFF, MetaCode(m)], ToVlq(m.length).value;
    FramedBytes(head, m.length, m.text);
    assert MetaRaw(m) == Ok(head + l + m.text);
    SeqAssoc(head, l, m.text);
  }

  lemma SeqAssoc<T>(a: seq<T>, b: seq<T>, c: seq<T>)
    ensures a + b + c == a + (b + c)
  {
  }

  /** Text events whose stored length is their size, below 2^28, are read
      back unchanged. */
  lemma TextRoundTrip(p: SmfParser, m: MetaEvent)
    requires IsText(m) && 0 < m.length < 0x1000_0000 && |m.text| == m.length
    ensures MetaRaw(m).Ok?
    ensures At(p, MetaRaw(m).value) ==> ParseMetaEvent(p) == Parsed(Ok(m), Skip(p, |MetaRaw(m).value|))
  {
    TextRaw(m);
    TextMetaOfCode(m);
    if At(p, MetaRaw(m).value) {
      TextBytes(p, MetaCode(m), m.length, m.text);
    }
  }

  /** A single byte below 0x80 is the VLQ of its own value. */
  lemma ParseVlqByte(p: SmfParser, b: uint8)
    requires b < 0x80 && At(p, [b])
    ensures ParseVlq(p) == Parsed(Ok(b as uint32), Skip(p, 1))
  {
    assert VlqValue([b]) == b as int by {
      assert [b][..0] == [];
    }
    ParseVlqAt(p, [b]);
  }

  /** A fixed-size body: the size byte and the payload. */
  lemma FixedBodyAt(p: SmfParser, code: uint8, data: seq<uint8>)
    requires FixedSize(code) == Some(|data|)
    requires At(p, [|data| as uint8] + data)
    ensures FixedBody(code, p) == Parsed(FixedMeta(code, data), Skip(p, 1 + |data|))
  {
    AtSplit(p, [|data| as uint8], data);
    ParseVlqByte(p, |data| as uint8);
    ReadAt(Skip(p, 1), data);
    var r := FixedBody(code, p);
    assert r.out == FixedMeta(code, data);
    assert r.rest == Skip(p, 1 + |data|);
  }

  /** The fixed-size types go to the fixed body. */
  lemma MetaBodyFixed(code: uint8, p: SmfParser)
    requires FixedSize(code).Some?
    ensures MetaBody(code, p) == FixedBody(code, p)
  {
  }

  /** A whole fixed-size meta event, byte by byte. */
  lemma FixedBytes(p: SmfParser, code: uint8, data: seq<uint8>)
    requires FixedSize(code) == Some(|data|)
    requires At(p, [0xFF, code] + ([|data| as uint8] + data))
    ensures ParseMetaEvent(p) == Parsed(FixedMeta(code, data), Skip(p, 3 + |data|))
  {
    AtSplit(p, [0xFF, code], [|data| as uint8] + data);
    MetaHead(p, code);
    var p2 := Skip(p, 2);
    FixedBodyAt(p2, code, data);
    MetaBodyFixed(code, p2);
    assert Skip(p2, 1 + |data|) == Skip(p, 3 + |data|);
  }

  /** The fixed-size types the parser decodes. */
  predicate FixedDecodable(m: MetaEvent) {
    m.SequenceNumber? || m.EndOfTrack? || m.SetTempo? || m.TimeSignature? || m.KeySignature?
  }

  /** The encoder writes a fixed-size event as 0xFF, its type, the size
      byte and the payload, and the payload decodes to `ReparsedMeta`. */
  lemma FixedRawShape(m: MetaEvent)
    requires FixedDecodable(m)
    ensures MetaRaw(m).Ok?
    ensures var raw := MetaRaw(m).value;
      && |raw| >= 3 && raw[0] == 0xFF
      && FixedSize(raw[1]) == Some(|raw| - 3) && raw[2] as int == |raw| - 3
      && FixedMeta(raw[1], raw[3..]) == Ok(ReparsedMeta(m))
  {
    assert MetaRaw(m) == OtherMetaRaw(m);
    var raw := MetaRaw(m).value;
    var data := raw[3..];
    match m
    case SequenceNumber(n) =>
      assert data == [AsU8(MaskBits(n, 2, 4)), AsU8(MaskBits(n, 0, 2))];
    case EndOfTrack =>
    case SetTempo(t) =>
      assert data == [AsU8(MaskBits(t, 4, 6)), AsU8(MaskBits(t, 2, 4)), AsU8(MaskBits(t, 0, 2))];
    case TimeSignature(a, b, c, d) =>
      assert data == [a, b, c, d];
    case KeySignature(sf, minor) =>
      assert data == [sf, minor];
  }

  /** The fixed-size events are read back as `ReparsedMeta`: unchanged but
      for the sequence number and tempo. */
  lemma FixedRoundTrip(p: SmfParser, m: MetaEvent)
    requires FixedDecodable(m)
    ensures MetaRaw(m).Ok?
    ensures At(p, MetaRaw(m).value) ==>
      ParseMetaEvent(p) == Parsed(Ok(ReparsedMeta(m)), Skip(p, |MetaRaw(m).value|))
  {
    FixedRawShape(m);
    var raw := MetaRaw(m).value;
    if At(p, raw) {
      var data := raw[3..];
      assert raw == [0xFF, raw[1]] + ([|data| as uint8] + data);
      FixedBytes(p, raw[1], data);
    }
  }

  /** Every meta event `MetaDecodable` describes is read back as
      `ReparsedMeta` of it, consuming exactly its bytes. */
  lemma MetaRoundTrip(p: SmfParser, m: MetaEvent)
    requires MetaDecodable(m)
    ensures MetaRaw(m).Ok?
    ensures At(p, MetaRaw(m).value) ==>
      ParseMetaEvent(p) == Parsed(Ok(ReparsedMeta(m)), Skip(p, |MetaRaw(m).value|))
  {
    if IsText(m) {
      TextRoundTrip(p, m);
    } else {
      FixedRoundTrip(p, m);
    }
  }

  /** A channel prefix is written as 0xFF 0x20 0x01 and the channel. */
  lemma ChannelPrefixRaw(channel: uint8)
    ensures MetaRaw(MIDIChannelPrefix(channel)) == Ok([0xFF, 0x20, 0x01, channel])
  {
    assert MetaRaw(MIDIChannelPrefix(channel)) == OtherMetaRaw(MIDIChannelPrefix(channel));
  }

  /** Type 0x20 is not parsed: an `Err` after the two header bytes, so the
      channel prefix the encoder writes is rejected. */
  lemma ChannelPrefixRejected(p: SmfParser, channel: uint8)
    requires At(p, [0xFF, 0x20, 0x01, channel])
    ensures ParseMetaEvent(p) == Parsed(Err, Skip(p, 2))
  {
    AtSplit(p, [0xFF, 0x20], [0x01, channel]);
    UnknownMetaHead(p, 0x20);
  }

  /** A meta type with neither a fixed size nor a text payload is an `Err`
      after its two header bytes. */
  lemma UnknownMetaHead(p: SmfParser, code: uint8)
    requires At(p, [0xFF, code])
    requires FixedSize(code).None? && !(0x01 <= code <= 0x09) && code != 0x7F
    ensures ParseMetaEvent(p) == Parsed(Err, Skip(p, 2))
  {
    MetaHead(p, code);
  }

  /** An SMPTE offset is written with its five bytes, and decoding it
      panics on the sixth. */
  lemma SmpteRejected(p: SmfParser, smtpe: uint32, frame: uint8)
    ensures MetaRaw(SMTPEOffset(smtpe, frame)).Ok?
    ensures At(p, MetaRaw(SMTPEOffset(smtpe, frame)).value) ==> ParseMetaEvent(p).out == Abort
  {
    var m := SMTPEOffset(smtpe, frame);
    assert MetaRaw(m) == OtherMetaRaw(m);
    var raw := MetaRaw(m).value;
    var data := raw[3..];
    if At(p, raw) {
      assert raw == [0xFF, 0x54] + ([|data| as uint8] + data);
      FixedBytes(p, 0x54, data);
    }
  }

  /** A sequencer-specific event is written as FF 7F, its declared length
      as a VLQ, then its two payload bytes, whatever the length says. */
  lemma SequencerSpecificBytes(length: uint32, id: uint8, data: uint8)
    requires length > 0
    ensures MetaRaw(SequencerSpecific(length, id, data)) == Ok([0xFF, 0x7F] + (ToVlq(length).value + [id, data]))
  {
    var m := SequencerSpecific(length, id, data);
    var head, l := [0xFF, 0x7F], ToVlq(length).value;
    FramedBytes(head, length, [id, data]);
    assert MetaRaw(m) == Ok(head + l + [id, data]);
    SeqAssoc(head, l, [id, data]);
  }

  /** With the length that matches its size, 2, the event is FF 7F 02,
      id, data. */
  lemma SequencerSpecificRaw(id: uint8, data: uint8)
    ensures MetaRaw(SequencerSpecific(2, id, data)) == Ok([0xFF, 0x7F, 0x02, id, data])
  {
    var l := ToVlq(2).value;
    assert l == [2];
    assert [0xFF, 0x7F] + (l + [id, data]) == [0xFF, 0x7F, 0x02, id, data];
    SequencerSpecificBytes(2, id, data);
  }

  /** A sequencer-specific body reaches `unimplemented!()` once its
      payload is read. */
  lemma SequencerBodyAborts(p: SmfParser, id: uint8, data: uint8)
    requires At(p, [0x02, id, data])
    ensures PayloadBody(0x7F, p).out == Abort
  {
    AtSplit(p, [0x02], [id, data]);
    ParseVlqByte(p, 0x02);
    ReadAt(Skip(p, 1), [id, data]);
  }

  /** ... so the bytes the encoder writes for it are rejected. */
  lemma SequencerSpecificRejected(p: SmfParser, id: uint8, data: uint8)
    requires At(p, [0xFF, 0x7F, 0x02, id, data])
    ensures ParseMetaEvent(p).out == Abort
  {
    AtSplit(p, [0xFF, 0x7F], [0x02, id, data]);
    MetaHead(p, 0x7F);
    MetaBodyPayload(0x7F, Skip(p, 2));
    SequencerBodyAborts(Skip(p, 2), id, data);
  }

  /** A whole sysex event, byte by byte. */
  lemma SysExBytes(p: SmfParser, prefix: uint8, len: uint32, data: seq<uint8>)
    requires (prefix == 0xF0 || prefix == 0xF7) && 0 < len < 0x1000_0000 && |data| == len
    requires At(p, [prefix] + (ToVlq(len).value + data))
    ensures ParseSysex(p)
      == Parsed(Ok(if prefix == 0xF0 then SysExF0(len, data) else SysExF7(len, data)),
                Skip(p, 1 + |ToVlq(len).value| + len))
  {
    var l := ToVlq(len).value;
    AtSplit(p, [prefix], l + data);
    assert p.reader.data[p.reader.pointer] == prefix;
    var p1 := Skip(p, 1);
    PayloadRead(p1, len, data);
    var r := ParseSysex(p);
    assert r.out == Ok(if prefix == 0xF0 then SysExF0(len, data) else SysExF7(len, data));
    assert r.rest == Skip(p1, |l| + len);
  }

  /** The bytes of a sysex event. */
  lemma SysExRawBytes(m: SysExEvent)
    requires m.length > 0
    ensures SysExRaw(m) == Ok([SysExPrefix(m)] + (ToVlq(m.length).value + m.data))
  {
    var head, l := [SysExPrefix(m)], ToVlq(m.length).value;
    FramedBytes(head, m.length, m.data);
    assert SysExRaw(m) == Ok(head + l + m.data);
    SeqAssoc(head, l, m.data);
  }

  /** The sysex events the parser reads back: length is the payload size
      and fits a four-byte VLQ. */
  predicate SysExDecodable(m: SysExEvent) {
    0 < m.length < 0x1000_0000 && |m.data| == m.length
  }

  /** Such sysex events are read back unchanged. */
  lemma SysExRoundTrip(p: SmfParser, m: SysExEvent)
    requires SysExDecodable(m)
    ensures SysExRaw(m).Ok?
    ensures At(p, SysExRaw(m).value) ==> ParseSysex(p) == Parsed(Ok(m), Skip(p, |SysExRaw(m).value|))
  {
    SysExRawBytes(m);
    if At(p, SysExRaw(m).value) {
      SysExBytes(p, SysExPrefix(m), m.length, m.data);
    }
  }

  /** A channel message on channels 0 to 15 is written with a status byte
      the parser dispatches to the channel parser. */
  lemma ChannelRawStatus(m: MidiChannelMessage)
    requires Channel(m) < 16
    ensures ChannelRaw(m).Ok?
    ensures var raw := ChannelRaw(m).value; |raw| >= 2 && 0x80 <= raw[0] < 0xF0
  {
  }

  /** A channel event, read through `parse_midi_event`. */
  lemma ChannelEventRoundTrip(p: SmfParser, m: MidiChannelMessage)
    requires Channel(m) < 16
    ensures ChannelRaw(m).Ok?
    ensures var raw := ChannelRaw(m).value;
      At(p, raw) ==>
        ParseMidiEvent(p)
        == Parsed(Ok(ChannelEvent(ReparsedChannel(m))), Skip(p, |raw|).(runningStatus := Some(raw[0])))
  {
    ChannelRawStatus(m);
    var raw := ChannelRaw(m).value;
    if At(p, raw) {
      ChannelRoundTrip(p, m);
      assert p.reader.data[p.reader.pointer] == raw[0];
      var r := ParseMidiEvent(p);
      assert r.out == Ok(ChannelEvent(ReparsedChannel(m)));
      assert r.rest == Skip(p, |raw|).(runningStatus := Some(raw[0]));
    }
  }

  /** A meta event, read through `parse_midi_event`. */
  lemma MetaEventRoundTrip(p: SmfParser, m: MetaEvent)
    requires MetaDecodable(m)
    ensures MetaRaw(m).Ok?
    ensures At(p, MetaRaw(m).value) ==>
      ParseMidiEvent(p) == Parsed(Ok(MetaEventCase(ReparsedMeta(m))), Skip(p, |MetaRaw(m).value|))
  {
    MetaRoundTrip(p, m);
    var raw := MetaRaw(m).value;
    if At(p, raw) {
      assert p.reader.data[p.reader.pointer] == 0xFF;
      var r := ParseMidiEvent(p);
      assert r.out == Ok(MetaEventCase(ReparsedMeta(m)));
      assert r.rest == Skip(p, |raw|);
    }
  }

  /** A sysex event, read through `parse_midi_event`. */
  lemma SysExEventRoundTrip(p: SmfParser, m: SysExEvent)
    requires SysExDecodable(m)
    ensures SysExRaw(m).Ok?
    ensures At(p, SysExRaw(m).value) ==>
      ParseMidiEvent(p) == Parsed(Ok(SysExEventCase(m)), Skip(p, |SysExRaw(m).value|))
  {
    SysExRoundTrip(p, m);
    var raw := SysExRaw(m).value;
    if At(p, raw) {
      assert p.reader.data[p.reader.pointer] == SysExPrefix(m);
      var r := ParseMidiEvent(p);
      assert r.out == Ok(SysExEventCase(m));
      assert r.rest == Skip(p, |raw|);
    }
  }

  /** The events the parser reads back. */
  predicate EventDecodable(e: MidiEvent) {
    match e
    case ChannelEvent(m) => Channel(m) < 16
    case MetaEventCase(m) => MetaDecodable(m)
    case SysExEventCase(m) => SysExDecodable(m)
  }

  /** What the parser returns for an event the encoder wrote. */
  function ReparsedEvent(e: MidiEvent): MidiEvent {
    match e
    case ChannelEvent(m) => ChannelEvent(ReparsedChannel(m))
    case MetaEventCase(m) => MetaEventCase(ReparsedMeta(m))
    case SysExEventCase(_) => e
  }

  /** The running status after reading the event: a channel message
      records its status byte, anything else leaves it as it was. */
  function StatusAfter(e: MidiEvent, status: Option<uint8>): Option<uint8>
    requires EventDecodable(e)
  {
    match e
    case ChannelEvent(m) =>
      ChannelRawStatus(m);
      Some(ChannelRaw(m).value[0])
    case _ => status
  }

  /** Every decodable event is read back as `ReparsedEvent` of it,
      consuming exactly its bytes. */
  lemma EventRoundTrip(p: SmfParser, e: MidiEvent)
    requires EventDecodable(e)
    ensures EventRaw(e).Ok?
    ensures At(p, EventRaw(e).value) ==>
      ParseMidiEvent(p)
      == Parsed(Ok(ReparsedEvent(e)), Skip(p, |EventRaw(e).value|).(runningStatus := StatusAfter(e, p.runningStatus)))
  {
    match e
    case ChannelEvent(m) => ChannelEventRoundTrip(p, m);
    case MetaEventCase(m) => MetaEventRoundTrip(p, m);
    case SysExEventCase(m) => SysExEventRoundTrip(p, m);
  }

  /** The pairs the parser reads back: a delta time the encoder accepts
      (not 0) that fits a four-byte VLQ, and a decodable event. */
  predicate PairDecodable(pair: EventPair) {
    0 < pair.time < 0x1000_0000 && EventDecodable(pair.event)
  }

  function ReparsedPair(pair: EventPair): EventPair {
    EventPair(pair.time, ReparsedEvent(pair.event))
  }

  /** The bytes of a pair. */
  lemma PairBytes(pair: EventPair)
    requires pair.time > 0 && EventRaw(pair.event).Ok?
    ensures PairRaw(pair) == Ok(ToVlq(pair.time).value + EventRaw(pair.event).value)
  {
  }

  /** Every pair the parser can read back is one the encoder can write. */
  lemma DecodableEncodes(pair: EventPair)
    requires PairDecodable(pair)
    ensures pair.time > 0 && EventRaw(pair.event).Ok?
  {
    EventRoundTrip(SmfParser(SmfReader([], 0), None), pair.event);
  }

  /** A decodable pair is read back as `ReparsedPair` of it. */
  lemma PairRoundTrip(p: SmfParser, pair: EventPair)
    requires PairDecodable(pair)
    ensures PairRaw(pair).Ok?
    ensures At(p, PairRaw(pair).value) ==>
      ParseMtrkEvent(p)
      == Parsed(Ok(ReparsedPair(pair)), Skip(p, |PairRaw(pair).value|).(runningStatus := StatusAfter(pair.event, p.runningStatus)))
  {
    DecodableEncodes(pair);
    PairBytes(pair);
    var l, ev := ToVlq(pair.time).value, EventRaw(pair.event).value;
    if At(p, l + ev) {
      AtSplit(p, l, ev);
      ParseVlqOfToVlq(p, pair.time);
      var p1 := Skip(p, |l|);
      EventRoundTrip(p1, pair.event);
      var r := ParseMtrkEvent(p);
      assert r.out == Ok(ReparsedPair(pair));
      assert r.rest == Skip(p, |l + ev|).(runningStatus := StatusAfter(pair.event, p.runningStatus));
    }
  }

  /** Only the end of track is read back as an end of track. */
  lemma ReparsedEndOfTrack(e: MidiEvent)
    ensures IsEndOfTrack(ReparsedEvent(e)) <==> IsEndOfTrack(e)
  {
  }

  /** `seek_if_track_end` answers true exactly where the parser would read
      an end of track: the encoded end of track is found by the peek (when
      a byte follows it), and then it parses as that event, consuming its
      three bytes and nothing else. */
  lemma SeekIfTrackEndAgrees(p: SmfParser)
    ensures At(p, MetaRaw(EndOfTrack).value) && p.reader.pointer + 3 < |p.reader.data| ==> SeekIfTrackEnd(p) == Ok(true)
    ensures SeekIfTrackEnd(p) == Ok(true) ==>
      ParseMidiEvent(p) == Parsed(Ok(MetaEventCase(EndOfTrack)), Skip(p, 3))
  {
    assert MetaRaw(EndOfTrack) == Ok([0xFF, 0x2F, 0x00]) by {
      assert MetaRaw(EndOfTrack) == OtherMetaRaw(EndOfTrack);
    }
    if SeekIfTrackEnd(p) == Ok(true) {
      MetaEventRoundTrip(p, EndOfTrack);
    }
  }

  /** The tracks the parser reads back: every pair decodable, and the
      events ending with their first EndOfTrack. */
  predicate TrackDecodable(events: seq<EventPair>) {
    EndsTrack(events) && forall i :: 0 <= i < |events| ==> PairDecodable(events[i])
  }

  function ReparsedPairs(events: seq<EventPair>): (r: seq<EventPair>)
    ensures |r| == |events|
  {
    if |events| == 0 then [] else [ReparsedPair(events[0])] + ReparsedPairs(events[1..])
  }

  /** The running status after a run of decodable events: the status byte
      of the last channel message among them, if any. */
  function StatusAfterAll(events: seq<EventPair>, status: Option<uint8>): Option<uint8>
    requires forall i :: 0 <= i < |events| ==> PairDecodable(events[i])
  {
    if |events| == 0 then status
    else
      assert PairDecodable(events[0]);
      StatusAfterAll(events[1..], StatusAfter(events[0].event, status))
  }

  /** The first pair of a decodable track, and the decodable rest. */
  lemma TrackDecodableTail(events: seq<EventPair>)
    requires TrackDecodable(events)
    ensures PairDecodable(events[0])
    ensures |events| == 1 <==> IsEndOfTrack(events[0].event)
    ensures |events| > 1 ==> TrackDecodable(events[1..])
  {
    var tail := events[1..];
    assert forall i :: 0 <= i < |tail| ==> tail[i] == events[i + 1];
  }

  /** The encoded pairs: the first pair's bytes, then the rest's. */
  lemma PairsRawCons(events: seq<EventPair>)
    requires |events| > 0 && PairsRaw(events).Ok?
    ensures PairRaw(events[0]).Ok? && PairsRaw(events[1..]).Ok?
    ensures PairsRaw(events).value == PairRaw(events[0]).value + PairsRaw(events[1..]).value
  {
  }

  /** `parse_mtrk_events` stops after an end of track ... */
  lemma MtrkEventsLast(p: SmfParser, pair: EventPair, q: SmfParser)
    requires ParseMtrkEvent(p) == Parsed(Ok(pair), q) && IsEndOfTrack(pair.event)
    ensures ParseMtrkEvents(p) == Parsed(Ok([pair]), q)
  {
  }

  /** ... and otherwise goes on from where the pair ended. */
  lemma MtrkEventsNext(p: SmfParser, pair: EventPair, q: SmfParser, pairs: seq<EventPair>, q2: SmfParser)
    requires ParseMtrkEvent(p) == Parsed(Ok(pair), q) && !IsEndOfTrack(pair.event)
    requires ParseMtrkEvents(q) == Parsed(Ok(pairs), q2)
    ensures ParseMtrkEvents(p) == Parsed(Ok([pair] + pairs), q2)
  {
  }

  /** Decodable pairs all encode. */
  lemma PairsEncode(events: seq<EventPair>)
    requires forall i :: 0 <= i < |events| ==> PairDecodable(events[i])
    ensures PairsRaw(events).Ok?
  {
    forall i | 0 <= i < |events|
      ensures PairRaw(events[i]).Ok?
    {
      DecodableEncodes(events[i]);
    }
    PairsRawOk(events);
  }

  /** A decodable track's pairs are read back as `ReparsedPairs`, up to and
      including its end of track, with the running status carried across
      the events. */
  lemma {:induction false} PairsRoundTrip(p: SmfParser, events: seq<EventPair>)
    requires TrackDecodable(events)
    ensures PairsRaw(events).Ok?
    ensures At(p, PairsRaw(events).value) ==>
      ParseMtrkEvents(p)
      == Parsed(Ok(ReparsedPairs(events)),
                Skip(p, |PairsRaw(events).value|).(runningStatus := StatusAfterAll(events, p.runningStatus)))
    decreases |events|, 2
  {
    PairsEncode(events);
    if At(p, PairsRaw(events).value) {
      if |events| == 1 {
        LastPairRoundTrip(p, events);
      } else {
        NextPairsRoundTrip(p, events);
      }
    }
  }

  /** The base case: the end of track alone. */
  lemma LastPairRoundTrip(p: SmfParser, events: seq<EventPair>)
    requires TrackDecodable(events) && |events| == 1
    requires PairsRaw(events).Ok? && At(p, PairsRaw(events).value)
    ensures ParseMtrkEvents(p)
      == Parsed(Ok(ReparsedPairs(events)),
                Skip(p, |PairsRaw(events).value|).(runningStatus := StatusAfterAll(events, p.runningStatus)))
  {
    var pair := events[0];
    TrackDecodableTail(events);
    PairsRawCons(events);
    assert PairsRaw(events[1..]) == Ok([]);
    assert PairsRaw(events).value == PairRaw(pair).value;
    PairRoundTrip(p, pair);
    ReparsedEndOfTrack(pair.event);
    var q := Skip(p, |PairRaw(pair).value|).(runningStatus := StatusAfter(pair.event, p.runningStatus));
    MtrkEventsLast(p, ReparsedPair(pair), q);
    assert ReparsedPairs(events) == [ReparsedPair(pair)];
    assert StatusAfterAll(events, p.runningStatus) == StatusAfter(pair.event, p.runningStatus);
  }

  /** The parser after the first pair of a track. */
  function AfterFirst(p: SmfParser, events: seq<EventPair>): SmfParser
    requires TrackDecodable(events)
  {
    TrackDecodableTail(events);
    PairRoundTrip(p, events[0]);
    Skip(p, |PairRaw(events[0]).value|).(runningStatus := StatusAfter(events[0].event, p.runningStatus))
  }

  /** The first pair of a track is read back ... */
  lemma FirstPairParsed(p: SmfParser, events: seq<EventPair>)
    requires TrackDecodable(events) && |events| > 1
    requires PairsRaw(events).Ok? && At(p, PairsRaw(events).value)
    ensures ParseMtrkEvent(p) == Parsed(Ok(ReparsedPair(events[0])), AfterFirst(p, events))
    ensures !IsEndOfTrack(ReparsedPair(events[0]).event)
  {
    TrackDecodableTail(events);
    PairsRawCons(events);
    AtSplit(p, PairRaw(events[0]).value, PairsRaw(events[1..]).value);
    PairRoundTrip(p, events[0]);
    ReparsedEndOfTrack(events[0].event);
  }

  /** Where the first pair leaves the parser: at the rest's bytes. */
  lemma AfterFirstAt(p: SmfParser, events: seq<EventPair>)
    requires TrackDecodable(events) && |events| > 1
    requires PairsRaw(events).Ok? && At(p, PairsRaw(events).value)
    ensures PairsRaw(events[1..]).Ok?
    ensures At(AfterFirst(p, events), PairsRaw(events[1..]).value)
    ensures Skip(AfterFirst(p, events), |PairsRaw(events[1..]).value|)
      == Skip(p, |PairsRaw(events).value|).(runningStatus := AfterFirst(p, events).runningStatus)
  {
    PairsRawCons(events);
    var head, tail := PairRaw(events[0]).value, PairsRaw(events[1..]).value;
    SkipSplit(p, head, tail, StatusAfter(events[0].event, p.runningStatus));
    assert AfterFirst(p, events) == Skip(p, |head|).(runningStatus := StatusAfter(events[0].event, p.runningStatus));
  }

  /** The running status after the whole track, one pair at a time. */
  lemma StatusAfterFirst(p: SmfParser, events: seq<EventPair>)
    requires TrackDecodable(events) && |events| > 1
    ensures TrackDecodable(events[1..])
    ensures StatusAfterAll(events, p.runningStatus)
      == StatusAfterAll(events[1..], AfterFirst(p, events).runningStatus)
  {
    TrackDecodableTail(events);
  }

  /** ... and then the rest of it. */
  lemma {:induction false} RestPairsParsed(p: SmfParser, events: seq<EventPair>)
    requires TrackDecodable(events) && |events| > 1
    requires PairsRaw(events).Ok? && At(p, PairsRaw(events).value)
    ensures ParseMtrkEvents(AfterFirst(p, events))
      == Parsed(Ok(ReparsedPairs(events[1..])),
                Skip(p, |PairsRaw(events).value|).(runningStatus := StatusAfterAll(events, p.runningStatus)))
    decreases |events|, 0
  {
    AfterFirstAt(p, events);
    StatusAfterFirst(p, events);
    PairsRoundTrip(AfterFirst(p, events), events[1..]);
  }

  /** The step: one pair that is not the end of track, then the rest. */
  lemma {:induction false} NextPairsRoundTrip(p: SmfParser, events: seq<EventPair>)
    requires TrackDecodable(events) && |events| > 1
    requires PairsRaw(events).Ok? && At(p, PairsRaw(events).value)
    ensures ParseMtrkEvents(p)
      == Parsed(Ok(ReparsedPairs(events)),
                Skip(p, |PairsRaw(events).value|).(runningStatus := StatusAfterAll(events, p.runningStatus)))
    decreases |events|, 1
  {
    FirstPairParsed(p, events);
    RestPairsParsed(p, events);
    MtrkEventsNext(p, ReparsedPair(events[0]), AfterFirst(p, events), ReparsedPairs(events[1..]),
                   Skip(p, |PairsRaw(events).value|).(runningStatus := StatusAfterAll(events, p.runningStatus)));
  }

  /** The header `next_chunk` builds from the ten bytes after MThd: the
      length, format and track count big-endian, the resolution as
      `(b0 << 1) + b1`. */
  function HeaderOfBytes(bs: seq<uint8>): HeaderChunk
    requires |bs| == 10
  {
    HeaderChunk(bs[0] as int * 0x100_0000 + bs[1] as int * 0x1_0000 + bs[2] as int * 0x100 + bs[3],
                bs[4] as int * 0x100 + bs[5],
                bs[6] as int * 0x100 + bs[7],
                bs[8] as int * 2 + bs[9])
  }

  /** The header body moves the parser on by ten bytes ... */
  lemma HeaderBodySkips(p: SmfParser)
    requires p.reader.pointer + 10 <= |p.reader.data|
    ensures HeaderBody(p).rest == Skip(p, 10)
  {
  }

  /** ... and reads the ten bytes after the MThd tag. */
  lemma HeaderBodyAt(p: SmfParser, bs: seq<uint8>)
    requires |bs| == 10 && At(p, bs)
    ensures HeaderBody(p) == Parsed(Ok(Header(HeaderOfBytes(bs))), Skip(p, 10))
  {
    var d, i := p.reader.data, p.reader.pointer;
    assert d[i..i + 10] == bs;
    assert d[i..i + 4] == bs[..4];
    assert d[i + 4..i + 6] == d[i..i + 10][4..6] == bs[4..6];
    assert d[i + 6..i + 8] == d[i..i + 10][6..8] == bs[6..8];
    assert d[i + 8] == bs[8] && d[i + 9] == bs[9];
    HeaderOfBytesBigEndian(bs);
    HeaderBodySkips(p);
  }

  /** The three big-endian fields of the header, written out. */
  lemma HeaderOfBytesBigEndian(bs: seq<uint8>)
    requires |bs| == 10
    ensures var h := HeaderOfBytes(bs);
      && h.length == BigEndian(bs[..4]) && h.format == BigEndian(bs[4..6])
      && h.tracks == BigEndian(bs[6..8]) && h.resolution == bs[8] as int * 2 + bs[9]
  {
    BigEndianQuad(bs[..4]);
    BigEndianPair(bs[4..6]);
    BigEndianPair(bs[6..8]);
  }

  /** The MThd tag at the pointer is consumed and selects the header
      body ... */
  lemma HeaderTag(p: SmfParser, rest: seq<uint8>)
    requires At(p, MThd + rest)
    ensures NextChunk(p) == HeaderBody(Skip(p, 4)) && At(Skip(p, 4), rest)
  {
    AtSplit(p, MThd, rest);
    assert NextBytes(p.reader, 4).0 == Some(MThd);
  }

  /** ... and the MTrk tag the track body. */
  lemma TrackTag(p: SmfParser, rest: seq<uint8>)
    requires At(p, MTrk + rest)
    ensures NextChunk(p) == TrackBody(Skip(p, 4)) && At(Skip(p, 4), rest)
  {
    AtSplit(p, MTrk, rest);
    assert NextBytes(p.reader, 4).0 == Some(MTrk);
  }

  /** A header chunk is read back as the header of its own ten body
      bytes, which are masked rather than big-endian. */
  lemma HeaderRoundTrip(p: SmfParser, h: HeaderChunk)
    requires At(p, HeaderRaw(h))
    ensures NextChunk(p) == Parsed(Ok(Header(HeaderOfBytes(HeaderRaw(h)[4..]))), Skip(p, 14))
    ensures NextChunk(p) == Parsed(Ok(Header(MaskedHeader(h))), Skip(p, 14))
  {
    HeaderReadBack(h);
    var raw := HeaderRaw(h);
    assert raw == MThd + raw[4..];
    HeaderTag(p, raw[4..]);
    HeaderBodyAt(Skip(p, 4), raw[4..]);
    assert Skip(Skip(p, 4), 10) == Skip(p, 14);
  }

  /** The header the parser derives from the bytes written for h: every
      field keeps only its low byte, written once or several times with
      low bits cleared, and read back with big-endian (or, for the
      resolution, `2*b0 + b1`) weights. */
  function MaskedHeader(h: HeaderChunk): HeaderChunk {
    var l, f, t, res := h.length % 0x100, h.format % 0x100, h.tracks % 0x100, h.resolution % 0x100;
    HeaderChunk(l / 8 * 8 * 0x100_0000 + l / 4 * 4 * 0x1_0000 + l / 2 * 2 * 0x100 + l,
                f / 2 * 2 * 0x100 + f,
                t / 2 * 2 * 0x100 + t,
                res / 2 * 2 * 2 + res)
  }

  /** Reading the ten body bytes of an encoded header gives `MaskedHeader`. */
  lemma HeaderReadBack(h: HeaderChunk)
    ensures HeaderOfBytes(HeaderRaw(h)[4..]) == MaskedHeader(h)
  {
    var bs := HeaderRaw(h)[4..];
    assert bs[0..4] == LengthBytes(h.length);
    assert bs[4..6] == ShortBytes(h.format);
    assert bs[6..8] == ShortBytes(h.tracks);
    assert bs[8..10] == ShortBytes(h.resolution);
  }

  /** The standard header 6 / 1 / 2 / 480 comes back with length 0x40606,
      514 tracks and resolution 672. */
  lemma HeaderRoundTripExample()
    ensures HeaderOfBytes(HeaderRaw(HeaderChunk(6, 1, 2, 480))[4..]) == HeaderChunk(0x4_0606, 1, 514, 672)
  {
    HeaderRawExample();
  }

  /** The four length bytes and a track's encoded events. */
  lemma TrackBodyAt(p: SmfParser, lb: seq<uint8>, events: seq<EventPair>, body: seq<uint8>)
    requires |lb| == 4 && TrackDecodable(events)
    requires PairsRaw(events) == Ok(body) && At(p, lb + body)
    ensures TrackBody(p)
      == Parsed(Ok(Track(TrackChunk(TrackLengthOf(lb), ReparsedPairs(events)))),
                Skip(p, 4 + |body|).(runningStatus := StatusAfterAll(events, p.runningStatus)))
  {
    AtSplit(p, lb, body);
    var p1 := Skip(p, 4);
    assert NextBytes(p.reader, 4) == (Some(lb), p1.reader);
    PairsRoundTrip(p1, events);
    var r := TrackBody(p);
    assert r.out == Ok(Track(TrackChunk(TrackLengthOf(lb), ReparsedPairs(events))));
    assert r.rest == Skip(p1, |body|).(runningStatus := StatusAfterAll(events, p.runningStatus));
  }

  /** The bytes of a track chunk. */
  lemma TrackRawBytes(t: TrackChunk)
    requires PairsRaw(t.events).Ok?
    ensures TrackRaw(t) == Ok(MTrk + (LengthBytes(t.length) + PairsRaw(t.events).value))
  {
    assert MTrk + LengthBytes(t.length) + PairsRaw(t.events).value
      == MTrk + (LengthBytes(t.length) + PairsRaw(t.events).value);
  }

  /** A whole track chunk, byte by byte. */
  lemma TrackBytes(p: SmfParser, lb: seq<uint8>, events: seq<EventPair>, body: seq<uint8>)
    requires |lb| == 4 && TrackDecodable(events)
    requires PairsRaw(events) == Ok(body) && At(p, MTrk + (lb + body))
    ensures NextChunk(p)
      == Parsed(Ok(Track(TrackChunk(TrackLengthOf(lb), ReparsedPairs(events)))),
                Skip(p, 8 + |body|).(runningStatus := StatusAfterAll(events, p.runningStatus)))
  {
    TrackTag(p, lb + body);
    TrackBodyAt(Skip(p, 4), lb, events, body);
  }

  /** A track chunk with decodable events is read back with its events
      reparsed and its length as `next_chunk` reads the masked length
      bytes; the running status carries over from the events. */
  lemma TrackRoundTrip(p: SmfParser, t: TrackChunk)
    requires TrackDecodable(t.events)
    ensures TrackRaw(t).Ok?
    ensures At(p, TrackRaw(t).value) ==>
      NextChunk(p)
      == Parsed(Ok(Track(TrackChunk(TrackLengthOf(LengthBytes(t.length)), ReparsedPairs(t.events)))),
                Skip(p, |TrackRaw(t).value|).(runningStatus := StatusAfterAll(t.events, p.runningStatus)))
  {
    PairsEncode(t.events);
    TrackRawBytes(t);
    if At(p, TrackRaw(t).value) {
      TrackBytes(p, LengthBytes(t.length), t.events, PairsRaw(t.events).value);
    }
  }

  /** Running status through `parse_midi_event`: a data byte goes to the
      channel parser, which decodes it under the recorded status. */
  lemma RunningStatusEvent(p: SmfParser, head: uint8, bs: seq<uint8>)
    requires p.runningStatus == Some(head) && 0x80 <= head < 0xF0
    requires |bs| == DataCount(head) && bs[0] < 0x80 && At(p, bs)
    requires p.reader.pointer + 1 < |p.reader.data|
    ensures ParseMidiEvent(p)
      == Parsed(Ok(ChannelEvent(Voice(DecodeVoice(head, bs[0], Second(bs))))), Skip(p, |bs|))
  {
    RunningStatus(p, head, bs);
    assert p.reader.data[p.reader.pointer] == bs[0];
  }

  /** A one-byte delta time and the event after it. */
  lemma MtrkEventDelta(p: SmfParser, delta: uint8, e: MidiEvent, q: SmfParser)
    requires delta < 0x80 && At(p, [delta])
    requires ParseMidiEvent(Skip(p, 1)) == Parsed(Ok(e), q)
    ensures ParseMtrkEvent(p) == Parsed(Ok(EventPair(delta as uint32, e)), q)
  {
    ParseVlqByte(p, delta);
  }

  /** Note on, then a second note on sent as data bytes only, then the end
      of track: `00 90 3C 40  00 3C 00  00 FF 2F 00`. */
  const RunningStatusTrack: seq<uint8> := [0x00, 0x90, 0x3C, 0x40, 0x00, 0x3C, 0x00, 0x00, 0xFF, 0x2F, 0x00]

  /** The first pair: delta 0 and an explicit note on. */
  lemma RunningStatusFirst(p: SmfParser)
    requires At(p, RunningStatusTrack)
    ensures ParseMtrkEvent(p)
      == Parsed(Ok(EventPair(0, ChannelEvent(Voice(NoteOn(0, 0x3C, 0x40))))), Skip(p, 4).(runningStatus := Some(0x90)))
  {
    var m := Voice(NoteOn(0, 0x3C, 0x40));
    AtSplit(p, [0x00], ChannelRaw(m).value + RunningStatusTrack[4..]);
    AtSplit(Skip(p, 1), ChannelRaw(m).value, RunningStatusTrack[4..]);
    ChannelEventRoundTrip(Skip(p, 1), m);
    MtrkEventDelta(p, 0, ChannelEvent(m), Skip(p, 4).(runningStatus := Some(0x90)));
  }

  /** The second pair: delta 0 and two data bytes under status 0x90. */
  lemma RunningStatusSecond(p: SmfParser)
    requires At(p, RunningStatusTrack)
    ensures var q := Skip(p, 4).(runningStatus := Some(0x90));
      ParseMtrkEvent(q) == Parsed(Ok(EventPair(0, ChannelEvent(Voice(NoteOn(0, 0x3C, 0x00))))), Skip(q, 3))
  {
    var q := Skip(p, 4).(runningStatus := Some(0x90));
    AtSplit(p, RunningStatusTrack[..4], [0x00] + ([0x3C, 0x00] + RunningStatusTrack[7..]));
    AtSplit(q, [0x00], [0x3C, 0x00] + RunningStatusTrack[7..]);
    AtSplit(Skip(q, 1), [0x3C, 0x00], RunningStatusTrack[7..]);
    RunningStatusEvent(Skip(q, 1), 0x90, [0x3C, 0x00]);
    MtrkEventDelta(q, 0, ChannelEvent(Voice(NoteOn(0, 0x3C, 0x00))), Skip(q, 3));
  }

  /** The third pair: delta 0 and the end of track. */
  lemma RunningStatusThird(p: SmfParser)
    requires At(p, RunningStatusTrack)
    ensures var q := Skip(p, 7).(runningStatus := Some(0x90));
      ParseMtrkEvent(q) == Parsed(Ok(EventPair(0, MetaEventCase(EndOfTrack))), Skip(q, 4))
  {
    var q := Skip(p, 7).(runningStatus := Some(0x90));
    assert MetaRaw(EndOfTrack).value == [0xFF, 0x2F, 0x00] by {
      assert MetaRaw(EndOfTrack) == OtherMetaRaw(EndOfTrack);
    }
    AtSplit(p, RunningStatusTrack[..7], [0x00] + [0xFF, 0x2F, 0x00]);
    AtSplit(q, [0x00], [0xFF, 0x2F, 0x00]);
    MetaEventRoundTrip(Skip(q, 1), EndOfTrack);
    MtrkEventDelta(q, 0, MetaEventCase(EndOfTrack), Skip(q, 4));
  }

  /** The last two pairs, read under status 0x90. */
  lemma RunningStatusTail(p: SmfParser)
    requires At(p, RunningStatusTrack)
    ensures ParseMtrkEvents(Skip(p, 4).(runningStatus := Some(0x90)))
      == Parsed(Ok([EventPair(0, ChannelEvent(Voice(NoteOn(0, 0x3C, 0x00))))] + [EventPair(0, MetaEventCase(EndOfTrack))]),
                Skip(p, 11).(runningStatus := Some(0x90)))
  {
    var q1 := Skip(p, 4).(runningStatus := Some(0x90));
    var q2 := Skip(p, 7).(runningStatus := Some(0x90));
    var q3 := Skip(p, 11).(runningStatus := Some(0x90));
    var pair2 := EventPair(0, ChannelEvent(Voice(NoteOn(0, 0x3C, 0x00))));
    var pair3 := EventPair(0, MetaEventCase(EndOfTrack));
    RunningStatusSecond(p);
    assert Skip(q1, 3) == q2;
    RunningStatusThird(p);
    assert Skip(q2, 4) == q3;
    MtrkEventsLast(q2, pair3, q3);
    MtrkEventsNext(q1, pair2, q2, [pair3], q3);
  }

  /** Whatever the running status before it, the track reads as three
      pairs: the second note reuses the status 0x90 of the first, and the
      status is still recorded after the track. */
  lemma RunningStatusExample(p: SmfParser)
    requires At(p, RunningStatusTrack)
    ensures ParseMtrkEvents(p)
      == Parsed(Ok([EventPair(0, ChannelEvent(Voice(NoteOn(0, 0x3C, 0x40)))),
                    EventPair(0, ChannelEvent(Voice(NoteOn(0, 0x3C, 0x00)))),
                    EventPair(0, MetaEventCase(EndOfTrack))]),
                Skip(p, 11).(runningStatus := Some(0x90)))
  {
    var q1 := Skip(p, 4).(runningStatus := Some(0x90));
    var q3 := Skip(p, 11).(runningStatus := Some(0x90));
    var pair1 := EventPair(0, ChannelEvent(Voice(NoteOn(0, 0x3C, 0x40))));
    var pair2 := EventPair(0, ChannelEvent(Voice(NoteOn(0, 0x3C, 0x00))));
    var pair3 := EventPair(0, MetaEventCase(EndOfTrack));
    RunningStatusFirst(p);
    RunningStatusTail(p);
    MtrkEventsNext(p, pair1, q1, [pair2] + [pair3], q3);
    assert [pair1] + ([pair2] + [pair3]) == [pair1, pair2, pair3];
  }
}

=== FILE: vlq.dfy ===
/** The variable-length quantity of Standard MIDI Files: big-endian groups of
    seven bits, the high bit of every byte but the last set.
    Source: `to_vlq` and `from_vlq` in src/types/message.rs. */
module Vlq {
  import opened Base

  function Pow128(k: nat): (r: nat)
    ensures r >= 1
  {
    if k == 0 then 1 else 128 * Pow128(k - 1)
  }

  /** The seven payload bits of a byte, as `from_vlq` takes them. */
  function Low7(b: uint8): (r: nat)
    ensures r < 128 && r == b % 128
  {
    if b < 128 then b else b - 128
  }

  /** The well-formed shape: non-empty, every byte but the last has the
      continuation bit, the last does not. */
  ghost predicate IsVlq(bs: seq<uint8>) {
    && |bs| > 0
    && (forall i :: 0 <= i < |bs| - 1 ==> bs[i] >= 0x80)
    && bs[|bs| - 1] < 0x80
  }

  /** Reference decoding: the seven-bit groups of `bs`, most significant first. */
  function VlqValue(bs: seq<uint8>): nat {
    if |bs| == 0 then 0 else VlqValue(bs[..|bs| - 1]) * 128 + Low7(bs[|bs| - 1])
  }

  /** The seven-bit groups of w, most significant first, every one with the
      continuation bit set; empty for 0. */
  function Marked(w: nat): (r: seq<uint8>)
    ensures w > 0 <==> |r| > 0
    ensures forall i :: 0 <= i < |r| ==> r[i] >= 0x80
  {
    if w == 0 then [] else Marked(w / 128) + [w % 128 + 128]
  }

  /** Reference encoding of a positive value: `Marked(v)` with the
      continuation bit of the last byte cleared. */
  function VlqBytes(v: nat): (r: seq<uint8>)
    requires v > 0
  {
    Marked(v / 128) + [v % 128]
  }

  /** `to_vlq`: panics on 0, since nothing is pushed and index 0 of the
      empty vector is then decremented. */
  function ToVlq(v: uint32): (r: Outcome<seq<uint8>>)
    ensures r.Abort? <==> v == 0
    ensures r.Ok? ==> IsVlq(r.value) && VlqValue(r.value) == v
    ensures r.Ok? ==> 1 <= |r.value| <= 5
    ensures r.Ok? && v < 0x1000_0000 ==> |r.value| <= 4
    ensures 0 < v < 128 ==> r == Ok([v])
  {
    if v == 0 then Abort
    else
      VlqBytesShape(v);
      VlqBytesLength(v);
      VlqBytesValue(v);
      MarkedLength(v, 5);
      assert v < 0x1000_0000 ==> |Marked(v)| <= 4 by {
        if v < 0x1000_0000 { MarkedLength(v, 4); }
      }
      Ok(VlqBytes(v))
  }

  lemma {:induction false} MarkedLength(w: nat, k: nat)
    requires w < Pow128(k)
    ensures |Marked(w)| <= k
  {
    if w > 0 {
      assert k > 0;
      assert w / 128 < Pow128(k - 1);
      MarkedLength(w / 128, k - 1);
    }
  }

  lemma VlqBytesShape(v: nat)
    requires v > 0
    ensures IsVlq(VlqBytes(v))
  {
    var init := Marked(v / 128);
    var r := init + [v % 128];
    assert forall i :: 0 <= i < |r| - 1 ==> r[i] == init[i];
  }

  lemma VlqBytesLength(v: nat)
    requires v > 0
    ensures |VlqBytes(v)| == |Marked(v)|
    ensures v < 128 ==> VlqBytes(v) == [v]
  {
    if v < 128 {
      assert Marked(v / 128) == [];
    }
  }

  lemma {:induction false} MarkedValue(w: nat)
    ensures VlqValue(Marked(w)) == w
  {
    if w > 0 {
      var m := Marked(w);
      assert m[..|m| - 1] == Marked(w / 128);
      MarkedValue(w / 128);
    }
  }

  lemma VlqBytesValue(v: nat)
    requires v > 0
    ensures VlqValue(VlqBytes(v)) == v
  {
    var r := VlqBytes(v);
    assert r[..|r| - 1] == Marked(v / 128);
    MarkedValue(v / 128);
  }

  /** `from_vlq`: for every byte, adds its seven bits shifted left by seven
      times the number of bytes after it. A shift of 32 or more, or a sum
      beyond u32, panics. */
  function FromVlq(bin: seq<uint8>): (r: Outcome<uint32>)
    ensures r != Err
    ensures |bin| <= 5 && VlqValue(bin) < 0x1_0000_0000 ==> r == Ok(VlqValue(bin))
    ensures |bin| <= 4 ==> r == Ok(VlqValue(bin)) && VlqValue(bin) < 0x1000_0000
    ensures |bin| >= 6 ==> r == Abort
  {
    FromVlqValue(bin);
    FromVlqFold(bin, 0, 0)
  }

  /** The `for` loop of `from_vlq` from index i on, with `ret` so far: it
      never reports an error, the sum only grows, and with six or more
      bytes left the first shift already reaches 35 bits and panics. */
  function FromVlqFold(bin: seq<uint8>, i: nat, ret: uint32): (r: Outcome<uint32>)
    requires i <= |bin|
    ensures r != Err
    ensures r.Ok? ==> r.value >= ret
    ensures |bin| - i >= 6 ==> r == Abort
    decreases |bin| - i
  {
    if i == |bin| then Ok(ret)
    else
      var num := Low7(bin[i]);
      var shift := 7 * (|bin| - i - 1);
      if shift >= 32 then Abort
      else
        // `num << shift` on u32 drops the bits above bit 31
        var term := (num * Pow2(shift)) % 0x1_0000_0000;
        if ret + term >= 0x1_0000_0000 then Abort
        else FromVlqFold(bin, i + 1, ret + term)
  }

  lemma {:induction false} Pow2Septets(k: nat)
    ensures Pow2(7 * k) == Pow128(k)
  {
    if k > 0 {
      Pow2Septets(k - 1);
      assert Pow2(7 * k) == 128 * Pow2(7 * (k - 1)) by {
        Pow2Add(7 * (k - 1), 7);
      }
    }
  }

  lemma {:induction false} Pow2Add(a: nat, b: nat)
    ensures Pow2(a + b) == Pow2(a) * Pow2(b)
  {
    if b > 0 {
      Pow2Add(a, b - 1);
      assert Pow2(a + b) == 2 * Pow2(a + b - 1);
    } else {
      assert Pow2(0) == 1;
    }
  }

  /** The value of a concatenation: the head's groups come first. */
  lemma {:induction false} VlqValueAppend(a: seq<uint8>, b: seq<uint8>)
    ensures VlqValue(a + b) == VlqValue(a) * Pow128(|b|) + VlqValue(b)
  {
    if |b| > 0 {
      var ab := a + b;
      var b' := b[..|b| - 1];
      var l := Low7(b[|b| - 1]);
      assert ab[..|ab| - 1] == a + b';
      assert ab[|ab| - 1] == b[|b| - 1];
      VlqValueAppend(a, b');
      var x, y, p := VlqValue(a), VlqValue(b'), Pow128(|b'|);
      assert VlqValue(ab) == (x * p + y) * 128 + l;
      assert VlqValue(b) == y * 128 + l;
      assert Pow128(|b|) == p * 128;
      assert (x * p + y) * 128 == x * (p * 128) + y * 128 by {
        MulDistrib(x * p, y, 128);
        MulAssoc(x, p, 128);
      }
    } else {
      assert a + b == a;
    }
  }

  lemma MulDistrib(x: int, y: int, z: int)
    ensures (x + y) * z == x * z + y * z
  {
  }

  lemma MulAssoc(x: int, y: int, z: int)
    ensures (x * y) * z == x * (y * z)
  {
  }

  lemma {:induction false} VlqValueBound(bs: seq<uint8>)
    ensures VlqValue(bs) < Pow128(|bs|)
  {
    if |bs| > 0 {
      VlqValueBound(bs[..|bs| - 1]);
    }
  }

  /** What the fold has added up after i bytes: each group at the place
      value of its position in the whole sequence. */
  function FoldPrefix(bin: seq<uint8>, i: nat): nat
    requires i <= |bin|
  {
    if i == 0 then 0 else FoldPrefix(bin, i - 1) + Low7(bin[i - 1]) * Pow128(|bin| - i)
  }

  /** The prefix sum is the prefix's own value shifted into place, and
      never exceeds the whole value. */
  lemma {:induction false} FoldPrefixValue(bin: seq<uint8>, i: nat)
    requires i <= |bin|
    ensures FoldPrefix(bin, i) == VlqValue(bin[..i]) * Pow128(|bin| - i) <= VlqValue(bin)
  {
    PrefixScaledBound(bin, i);
    if i == 0 {
      assert bin[..0] == [];
    } else {
      FoldPrefixValue(bin, i - 1);
      FoldStepValue(bin, i - 1);
    }
  }

  lemma {:induction false} FromVlqFoldValue(bin: seq<uint8>, i: nat)
    requires i <= |bin| <= 5
    requires VlqValue(bin) < 0x1_0000_0000
    requires FoldPrefix(bin, i) < 0x1_0000_0000
    ensures FromVlqFold(bin, i, FoldPrefix(bin, i)) == Ok(VlqValue(bin))
    decreases |bin| - i
  {
    if i == |bin| {
      FoldPrefixValue(bin, i);
      assert bin[..i] == bin;
    } else {
      assert FoldPrefix(bin, i + 1) <= VlqValue(bin) by {
        FoldPrefixValue(bin, i + 1);
      }
      FoldStepUnfold(bin, i, FoldPrefix(bin, i));
      FromVlqFoldValue(bin, i + 1);
    }
  }

  /** A step of the fold whose shift and sum stay in range adds the group
      at its place value. */
  lemma FoldStepUnfold(bin: seq<uint8>, i: nat, ret: uint32)
    requires i < |bin| <= 5
    requires ret + Low7(bin[i]) * Pow128(|bin| - i - 1) < 0x1_0000_0000
    ensures FromVlqFold(bin, i, ret) == FromVlqFold(bin, i + 1, ret + Low7(bin[i]) * Pow128(|bin| - i - 1))
  {
    var k := |bin| - i - 1;
    Pow2Septets(k);
    var t := Low7(bin[i]) * Pow128(k);
    assert 7 * k < 32;
    assert (Low7(bin[i]) * Pow2(7 * k)) % 0x1_0000_0000 == t % 0x1_0000_0000 == t;
  }

  /** One step of the fold: adding the next group to the prefix value
      scaled to its final position gives the longer prefix, scaled. */
  lemma FoldStepValue(bin: seq<uint8>, i: nat)
    requires i < |bin|
    ensures var k := |bin| - i - 1;
      VlqValue(bin[..i]) * Pow128(|bin| - i) + Low7(bin[i]) * Pow128(k) == VlqValue(bin[..i + 1]) * Pow128(k)
  {
    var k := |bin| - i - 1;
    var pk := Pow128(k);
    var num := Low7(bin[i]);
    var head := bin[..i + 1];
    var prev := VlqValue(bin[..i]);
    assert head[..i] == bin[..i];
    assert VlqValue(head) == prev * 128 + num;
    assert Pow128(|bin| - i) == 128 * pk;
    assert VlqValue(head) * pk == prev * (128 * pk) + num * pk by {
      MulDistrib(prev * 128, num, pk);
      MulAssoc(prev, 128, pk);
    }
  }

  /** A prefix value scaled to its final position is at most the whole. */
  lemma PrefixScaledBound(bin: seq<uint8>, i: nat)
    requires i <= |bin|
    ensures VlqValue(bin[..i]) * Pow128(|bin| - i) <= VlqValue(bin)
  {
    assert bin == bin[..i] + bin[i..];
    VlqValueAppend(bin[..i], bin[i..]);
  }

  /** The loop of `from_vlq`, run from the start, computes the reference
      value whenever it fits in u32 and no shift reaches 32 bits. */
  lemma FromVlqValue(bin: seq<uint8>)
    ensures |bin| <= 5 && VlqValue(bin) < 0x1_0000_0000 ==> FromVlqFold(bin, 0, 0) == Ok(VlqValue(bin))
    ensures |bin| <= 4 ==> FromVlqFold(bin, 0, 0) == Ok(VlqValue(bin)) && VlqValue(bin) < 0x1000_0000
    ensures |bin| >= 6 ==> FromVlqFold(bin, 0, 0) == Abort
  {
    VlqValueBound(bin);
    if |bin| <= 4 {
      assert Pow128(|bin|) <= Pow128(4);
    }
    if |bin| <= 5 && VlqValue(bin) < 0x1_0000_0000 {
      FromVlqFoldValue(bin, 0);
    }
  }

  /** `from_vlq(to_vlq(v)) == v` for every `v > 0`. */
  lemma VlqRoundTrip(v: uint32)
    requires v > 0
    ensures ToVlq(v).Ok? && FromVlq(ToVlq(v).value) == Ok(v)
  {
  }

  /** The crate's `from_vlq` unit tests. */
  lemma FromVlqExamples()
    ensures FromVlq([0x7F]) == Ok(127)
    ensures FromVlq([0xFF, 0x7F]) == Ok(16383)
  {
    assert [0xFF, 0x7F][..1] == [0xFF];
  }

  /** The crate's `to_vlq` unit tests, and `to_vlq(0)` panicking. */
  lemma ToVlqExamples()
    ensures ToVlq(126) == Ok([0x7E])
    ensures ToVlq(1000) == Ok([0x87, 0x68])
    ensures ToVlq(100000) == Ok([0x86, 0x8D, 0x20])
    ensures ToVlq(0) == Abort
  {
    ToVlq1000();
    ToVlq100000();
  }

  lemma ToVlq1000()
    ensures VlqBytes(1000) == [0x87, 0x68]
  {
    assert Marked(7) == [0x87];
    assert Marked(1000) == [0x87, 0xE8];
  }

  lemma ToVlq100000()
    ensures VlqBytes(100000) == [0x86, 0x8D, 0x20]
  {
    assert Marked(6) == [0x86];
    assert Marked(781) == [0x86, 0x8D];
    assert Marked(100000) == [0x86, 0x8D, 0xA0];
  }

  /** Reverses a sequence (Rust's `Vec::reverse`). */
  function Reverse<T>(s: seq<T>): (r: seq<T>)
    ensures |r| == |s|
    ensures forall i :: 0 <= i < |s| ==> r[i] == s[|s| - 1 - i]
  {
    if |s| == 0 then [] else Reverse(s[1..]) + [s[0]]
  }

  /** `to_vlq` as written: push the low seven bits with the continuation bit
      set until nothing is left, clear the bit on the first pushed (least
      significant) byte, reverse. */
  method ToVlqLoop(val: uint32) returns (r: Outcome<seq<uint8>>)
    ensures r == ToVlq(val)
  {
    var reverseBinary: seq<uint8> := [];
    var rem: nat := val;
    while rem != 0
      invariant Marked(val) == Marked(rem) + Reverse(reverseBinary)
      invariant forall i :: 0 <= i < |reverseBinary| ==> reverseBinary[i] >= 0x80
      decreases rem
    {
      var seven := rem % 128;  // rem & 0b01111111
      rem := rem / 128;        // rem >> 7
      assert Reverse(reverseBinary + [seven + 128]) == [seven + 128] + Reverse(reverseBinary);
      reverseBinary := reverseBinary + [seven + 128];
    }
    if |reverseBinary| == 0 {
      // reverse_binary[0] on an empty vector
      return Abort;
    }
    ClearLastGroup(reverseBinary, val);
    reverseBinary := reverseBinary[0 := reverseBinary[0] - 128];
    r := Ok(Reverse(reverseBinary));
  }

  /** Clearing the continuation bit of the first pushed byte turns the
      reversed groups into the encoding. */
  lemma ClearLastGroup(rb: seq<uint8>, val: nat)
    requires |rb| > 0 && rb[0] >= 0x80
    requires Marked(val) == Reverse(rb)
    ensures val > 0 && Reverse(rb[0 := rb[0] - 128]) == VlqBytes(val)
  {
    var n := |rb|;
    var rb' := rb[0 := rb[0] - 128];
    var init := Marked(val / 128);
    assert Marked(val) == init + [val % 128 + 128];
    assert rb[0] == Reverse(rb)[n - 1] == val % 128 + 128;
    forall i | 0 <= i < n - 1
      ensures Reverse(rb')[i] == init[i]
    {
      assert Reverse(rb')[i] == rb'[n - 1 - i] == rb[n - 1 - i] == Reverse(rb)[i];
    }
    assert Reverse(rb')[n - 1] == rb'[0] == val % 128;
  }
}
